=== FILE: README.md ===
# BoilerJuice tank monitor — a Dafny model

This project models the core of the BoilerJuice Home Assistant add-on. The add-on logs in to
boilerjuice.com in a headless browser, reads the customer's oil-tank level, keeps a
history of readings, serves a small web API, and publishes the readings to Home Assistant
over MQTT auto-discovery. The model covers the logic of those parts, stated as pure
functions over immutable data:

- **PageClassifier**: the page-type detector. It lower-cases the page and checks the captcha
  markers first, then the login markers, then the tank words.
- **TankReading**: the `TankData` record, its dictionary form, and the level band
  (High/Medium/Low).
- **Extraction**: the three-stage extraction cascade.
  - First, the values read from page elements.
  - Then, for each field that is still unset or zero, the first matching text pattern.
  - Then, JSON fragments embedded in scripts, which can override litres and capacity.
  - Finally, a reading is assembled only when litres or percent is non-zero.
- **History**: appending to the history with a cap of 500 entries, Python-style
  `history[-limit:]` reads, and the cached "last reading".
- **Session**: the scraper's authentication flags and the fetch dispatch. The fetch tries the
  tank page, then the three alternate URLs in order, and stops at the first page that yields
  a reading.
- **PyValues**: JSON configuration values and Python truthiness.
- **Server**: the config endpoints (masking and merging), login-credential resolution
  including the `"__saved__"` sentinel, one pass of the auto-refresh loop, the manual refresh
  endpoint, and MIME lookup for static files.
- **Mqtt**: the client settings, the sensor table, discovery payloads, and the ordered message
  plans of each publishing function.
- **Text** and **Optional**: ASCII lower-casing, substring search with a reference
  definition, and an `Option` type.

Effects enter as parameters:

- **Browser:**
  - a navigation is a function from URL to an outcome;
  - the page contents are an `Extraction.Observation`;
  - regular-expression search is an oracle from pattern text to a capture.
- **The clock** is a `now` string.
- **The MQTT broker** is a `Broker` record. It says whether the client library is installed,
  whether connecting succeeds, and after how many publishes a publish raises.

The model follows `scraper.py` as written. In particular, the scraper does none of the following, so neither does the model:

- derive litres from capacity × percent;
- take a capacity from its caller;
- restrict percent to (0, 100];
- return a "busy" result for concurrent fetches.

## Model

| member | source | states |
|---|---|---|
| PageClassifier.Classify | boilerjuice/app/scraper.py:200-209 | captcha exactly when a captcha marker occurs in the lower-cased page (reference substring definition); login exactly when a login marker occurs and no captcha marker; tank exactly when only tank words occur; unknown when no marker occurs |
| PageClassifier.ClassifyCaseInsensitive | boilerjuice/app/scraper.py:202 | the classification of a page does not depend on letter case |
| PageClassifier.CaptchaSticky | boilerjuice/app/scraper.py:203-204 | a captcha page stays a captcha page whatever content surrounds it, including login fields |
| PageClassifier.LoginOutranksTank | boilerjuice/app/scraper.py:205-208 | a login marker without a captcha marker makes a login page even when tank words are present |
| PageClassifier.ChallengeScenario | boilerjuice/app/scraper.py:37-38 | a challenge page that also shows `user[email]` is classified as captcha, not login |
| Text.ContainsIff | boilerjuice/app/scraper.py:203 | the executable substring test agrees with the reference "occurs at some index" definition |
| Text.LowerIdempotent | boilerjuice/app/scraper.py:202 | lower-casing twice equals lower-casing once |
| TankReading.LevelName | boilerjuice/app/scraper.py:582-588 | High exactly when percent ≥ 60, Medium exactly when 30 ≤ percent < 60, Low exactly when percent < 30 |
| TankReading.LevelMonotone | boilerjuice/app/scraper.py:582-588 | a higher percentage never gives a lower band |
| TankReading.ToDict | boilerjuice/app/scraper.py:63-72 | the dictionary has exactly the seven field names; each numeric name holds its number and each text name its text, so the dictionary is well typed |
| TankReading.FromDict | boilerjuice/app/scraper.py:43-76 | accepted exactly when every key is a field name holding a value of that field's type; then every given key except the timestamp reads back unchanged, a missing numeric field reads back as 0, a missing level name as "Unknown", a non-empty timestamp is kept and an empty or missing one is replaced by the clock |
| TankReading.RoundTrip | boilerjuice/app/scraper.py:63-76 | reading back the dictionary form of a reading gives the same reading |
| TankReading.Stamp | boilerjuice/app/scraper.py:59 | a non-empty given timestamp is kept; a missing or empty one is replaced by the clock's time |
| Extraction.FirstMatch | boilerjuice/app/scraper.py:514-519 | nothing when every pattern misses; otherwise the capture of the first pattern that matches |
| Extraction.FirstMatchWins | boilerjuice/app/scraper.py:514-519 | when pattern i matches and all earlier ones miss, pattern i's capture is used |
| Extraction.Fallback | boilerjuice/app/scraper.py:508-556 | a non-zero value is kept; otherwise the number captured by the first matching pattern replaces it, an unparseable first capture aborts the extraction, and no match leaves the value unchanged |
| Extraction.FallbackTakesFirst | boilerjuice/app/scraper.py:514-519 | a missing or zero field takes the number of the earliest matching pattern, whatever later patterns capture |
| Extraction.ApplyFragment | boilerjuice/app/scraper.py:565-575 | a malformed fragment or one without a litres key is skipped; a usable one is taken exactly when neither conversion raises; a `TypeError` in litres, or in capacity after litres converted, ends the whole scan; litres and capacity are assigned exactly when their conversions succeed in order; total litres and percent are never touched |
| Extraction.ScanScript | boilerjuice/app/scraper.py:561-575 | scanning one script's fragments never skips past its end and leaves total litres and percent alone |
| Extraction.ScanScripts | boilerjuice/app/scraper.py:558-577 | scanning all scripts leaves total litres, percent and total percent unchanged, and no scripts leave every field as it was |
| Extraction.ScanScriptsSnoc | boilerjuice/app/scraper.py:558-577 | one more script is scanned over what the earlier scripts left, unless one of them aborted, in which case it is never read |
| Extraction.ScanScriptsAppend | boilerjuice/app/scraper.py:558-577 | scanning two runs of scripts continues the second run from where the first left off, unless the first aborted |
| Extraction.QuietScript | boilerjuice/app/scraper.py:565-576 | a script none of whose fragments changes anything is read to its end with the fields unchanged |
| Extraction.QuietScan | boilerjuice/app/scraper.py:558-577 | scripts none of whose fragments changes anything leave every field unchanged and do not abort |
| Extraction.AbortEndsScan | boilerjuice/app/scraper.py:570-577 | a `TypeError` in one script ends the scan; later scripts are never read |
| Extraction.LaterScriptOverrides | boilerjuice/app/scraper.py:558-578 | a later script with a convertible litres fragment overrides the litres found by earlier scripts |
| Extraction.MalformedIgnored | boilerjuice/app/scraper.py:566-576 | a fragment that is not valid JSON has no effect on the scan |
| Extraction.FragmentOverrides | boilerjuice/app/scraper.py:567-573 | the first fragment naming `litres` with a convertible value sets litres (and capacity when present) and ends that script's scan |
| Extraction.LitresValueErrorPasses | boilerjuice/app/scraper.py:568-575 | a fragment whose litres value raises `ValueError` is skipped with every field unchanged |
| Extraction.AfterFallbacks | boilerjuice/app/scraper.py:508-556 | no field map exactly when a fallback crashes; otherwise each of litres, total litres, capacity and percent is its own fallback's value and the total percentage is unset |
| Extraction.Gather | boilerjuice/app/scraper.py:465-578 | no field map exactly when one of the four text fallbacks crashes; otherwise the script scan applied on top of the fallbacks' fields, so total litres and percent are the fallbacks' values and the total percentage is never set |
| Extraction.GatherWithoutOverride | boilerjuice/app/scraper.py:558-578 | when no script fragment changes anything, the gathered litres and capacity are the text fallbacks' values |
| Extraction.ScanOverride | boilerjuice/app/scraper.py:558-578 | a script whose first litres-bearing fragment converts to `v`, read after scripts that did not abort and before scripts that change nothing, leaves litres at `v` |
| Extraction.GatherScriptOverride | boilerjuice/app/scraper.py:558-578 | a script whose first litres-bearing fragment converts to `v`, with no later script changing anything, makes the gathered litres `v` whatever the page elements and text said |
| Extraction.Assemble | boilerjuice/app/scraper.py:579-600 | a reading exists exactly when litres or percent is non-zero, with the level band of its percent and the documented defaults |
| Extraction.Extract | boilerjuice/app/scraper.py:459-604 | a reading exactly when no fallback crashed and litres or percent is non-zero; its litres, capacity and percent are the gathered ones (0 when unset), total litres the gathered one or else litres, total percent equals percent, its band is that of its percent, and it is stamped with the fetch instant |
| Extraction.ElementPercentKept | boilerjuice/app/scraper.py:500-505 | a non-zero percentage read from the element is never replaced by the text fallback |
| History.Append | boilerjuice/app/scraper.py:606-625 | the history grows by one entry up to 500, keeps the newest entries, and ends with the new reading |
| History.AppendBelowCap | boilerjuice/app/scraper.py:614 | below the cap, appending simply adds the reading at the end |
| History.AppendAtCap | boilerjuice/app/scraper.py:617-619 | at the cap, the oldest entry is dropped |
| History.AppendAllKeepsLast | boilerjuice/app/scraper.py:606-625 | any run of appends leaves exactly the last 500 of all readings |
| History.GetHistory | boilerjuice/app/scraper.py:643-652 | the result is always a suffix; a limit of 0 or one at least the length gives everything; a positive limit gives that many; a negative one drops entries from the front |
| History.GetLastData | boilerjuice/app/scraper.py:627-641 | the cached reading wins; on a cold start the newest history entry is read back, cached and returned; nothing when both are absent |
| History.LastDataAfterAppend | boilerjuice/app/scraper.py:606-641 | after a save, reading the last data from history gives the reading just saved |
| Session.Initial | boilerjuice/app/scraper.py:82-89 | a new scraper has no auth in progress, no last error and no cached reading; its history is the one on disk |
| Session.StartAuth | boilerjuice/app/scraper.py:239-263 | auth is marked in progress; success exactly when navigation settles, with the page's type; a failure records its message as the last error |
| Session.RelayInput | boilerjuice/app/scraper.py:265-302 | no page gives "No active page"; success exactly when the input settles, reporting the new page type and no error; an input that raises fails with the exception's message |
| Session.AuthFillLogin | boilerjuice/app/scraper.py:304-381 | no page gives "No active page"; the form is submitted only from a login page; captcha pages are refused with their message; any other page is refused with "Not on login page (detected: <type>). Current URL: <url>"; a submission that raises fails with its message; after submission auth stays in progress exactly when the new page is captcha or login |
| Session.FinishAuth | boilerjuice/app/scraper.py:383-386 | clears the in-progress flag and changes nothing else |
| Session.FillThenFinish | boilerjuice/app/scraper.py:367-386 | landing on a second captcha keeps auth in progress until it is finished explicitly |
| Session.Store | boilerjuice/app/scraper.py:425-428 | a fetched reading becomes the cached reading and is appended to the history |
| Session.ReadPages | boilerjuice/app/scraper.py:421-452 | the pages are visited in order and stop at the first one yielding a reading; every page passed over is barren; the reply is a load failure exactly when the last page visited failed to load, carrying that page's error; without a reading the state is unchanged; a reply without data carries the fixed error, the first 500 characters of the last page's text and the URL that page settled on |
| Session.WalkPages | boilerjuice/app/scraper.py:421-447 | the candidate pages are read in order: a reading is returned from the first page that yields one, with every earlier page barren; a navigation that raises stops the walk at that page; otherwise every page was barren and the last page stays loaded |
| Session.Fetch | boilerjuice/app/scraper.py:390-457 | "needs auth" exactly when the tank page is captcha or login, with the CAPTCHA message exactly for a captcha page and the session-expired message otherwise; the pages visited are a prefix of tank page then the three alternates; a load failure is reported exactly when the last page visited failed, with its error; the state changes only on success, and then the fetched reading is both the cached reading and the newest history entry; a reply without data reports the account page: fixed error, its first 500 characters of text and its URL |
| Session.AuthGate | boilerjuice/app/scraper.py:407-419 | a re-authentication message exactly for a captcha or login page: the CAPTCHA message for a captcha page, the session-expired message for a login page |
| Session.ReadRoute | boilerjuice/app/scraper.py:421-452 | after a tank page that is neither captcha nor login, the tank page and then the alternates are read in order, stopping at the first reading; a reply without data reports the account page's text preview and URL with the fixed error |
| Server.MaskConfig | boilerjuice/app/server.py:187-198 | both passwords removed; `has_password` reports whether a password is set; `has_mqtt_password` only when one is; `success` true; every other key unchanged |
| Server.MergeSecret | boilerjuice/app/server.py:215-218 | a non-empty secret from the body replaces the stored one; an empty or missing one leaves the config unchanged |
| Server.CopyEditable | boilerjuice/app/server.py:208-213 | each of the seven plain keys present in the body overwrites the stored value; every other key keeps its stored presence and value |
| Server.SetConfig | boilerjuice/app/server.py:201-228 | editable keys present in the body are copied; secrets only when non-empty; every other key is untouched; an unreadable body saves nothing |
| Server.SetConfigIdempotent | boilerjuice/app/server.py:201-221 | posting the same body twice gives the same config as posting it once |
| Server.SetConfigAgain | boilerjuice/app/server.py:208-218 | posting the same body a second time leaves every key, present or absent, exactly as the first post stored it |
| Server.EmptyPasswordKeepsSecret | boilerjuice/app/server.py:215-216 | a body with an empty password does not change whether a password is reported as set |
| Server.ResolveCredentials | boilerjuice/app/server.py:304-324 | `"__saved__"` is replaced by the stored password, then empty fields are filled from the config; nothing when either is still empty |
| Server.FillLogin | boilerjuice/app/server.py:304-327 | without credentials the scraper is never called; with them the scraper's reply is returned |
| Server.SentinelResolved | boilerjuice/app/server.py:311-313 | the sentinel is resolved to the stored password |
| Server.RefreshStep | boilerjuice/app/server.py:69-105 | one pass: a cancelled pass always ends the loop; otherwise a non-positive interval or missing tank id sleeps 60 s without fetching, an unreadable interval sleeps 300 s, a fetch publishes only on success with MQTT enabled and a raised fetch sleeps 300 s |
| Server.DefaultHourly | boilerjuice/app/server.py:74-99 | with no interval configured, a pass sleeps one hour |
| Server.LoopTrace | boilerjuice/app/server.py:71-105 | a loop of passes runs each pass in order and stops right after the first pass that exits |
| Server.Run | boilerjuice/app/server.py:69-105 | each entry of the loop is its pass's step, every entry but the last continues, and the loop is cut short only right after a pass that exits |
| Server.CancelEndsLoop | boilerjuice/app/server.py:101-102 | cancelling the loop's asyncio task ends the loop at that pass, whether it was fetching, idling or recovering from an error |
| Server.ErrorDoesNotStopLoop | boilerjuice/app/server.py:103-105 | an error in one pass never stops the following pass |
| Server.ManualRefresh | boilerjuice/app/server.py:241-258 | no tank id gives the configuration error without fetching; otherwise the fetch reply is returned, publishing only on success with MQTT enabled |
| Server.ManualPublishesLikeLoop | boilerjuice/app/server.py:249-256 | a manual refresh publishes exactly when a completed loop pass with the same config and fetch result would |
| Server.UnconfiguredNeverFetches | boilerjuice/app/server.py:79-83 | without a tank id neither the manual refresh nor any loop pass fetches |
| Server.RFind | boilerjuice/app/server.py:161 | the last index of a character, or -1 when absent |
| Server.Suffix | boilerjuice/app/server.py:161 | the suffix is the end of the file name from its last dot: empty exactly when the file name has no dot after its first character and before its last, otherwise a dot, at least one more character and no further dot |
| Server.SuffixLower | boilerjuice/app/server.py:161 | the suffix of a lower-cased path is the lower-cased suffix |
| Server.MediaType | boilerjuice/app/server.py:145-162 | the MIME table entry for the lower-cased suffix, else `application/octet-stream` |
| Server.MediaTypeCaseInsensitive | boilerjuice/app/server.py:161-162 | the media type does not depend on the case of the file name |
| Server.UpperCaseSuffix | boilerjuice/app/server.py:150-162 | `logo.PNG` is served as `image/png` |
| Server.DottedName | boilerjuice/app/server.py:160-161 | for a bare file name whose last dot is neither first nor last, the suffix is the tail from that dot |
| Server.LogoSuffix | boilerjuice/app/server.py:160 | the suffix of `logo.PNG` is `.PNG`, its case kept until the lookup lowers it |
| Server.ServeStatic | boilerjuice/app/server.py:157-164 | an existing file is served with its media type; otherwise a not-found reply names the path |
| Mqtt.Connect | boilerjuice/app/mqtt.py:75-99 | no library gives no client; an unconvertible port raises; otherwise the port is `int()` of the configured one; host and port default to `core-mosquitto`:1883; a login is set exactly when `mqtt_user` is truthy |
| Mqtt.DefaultClient | boilerjuice/app/mqtt.py:81-94 | with an empty config the client connects to `core-mosquitto`:1883 without a login |
| Mqtt.ParseDecimal | boilerjuice/app/mqtt.py:82 | `int()` reads back every natural number written in decimal |
| Mqtt.DecimalDigits | boilerjuice/app/mqtt.py:82 | the digit string of a natural number spells that number |
| Mqtt.PortRoundTrip | boilerjuice/app/mqtt.py:81-99 | a configured port given as decimal text is the port the client connects to |
| Mqtt.IntOf | boilerjuice/app/mqtt.py:82 | `int()` of a config value: booleans as 0/1, integers unchanged, floats truncated toward zero (within one of the value, never farther from zero), optionally signed digit strings read as the number they spell; null, the empty string, a lone sign and any string with a non-digit after its sign position raise |
| Mqtt.ParseInt | boilerjuice/app/mqtt.py:82 | `int(text)`: an unsigned, `-`- or `+`-signed run of decimal digits gives its value, negated for `-`; empty text, a lone sign or any other non-digit gives no number |
| Mqtt.Send | boilerjuice/app/mqtt.py:111-157 | the messages that went out are a prefix of the plan; all of them exactly when the broker does not raise within the plan, else exactly the ones before the failing publish |
| Mqtt.DiscoveryPayload | boilerjuice/app/mqtt.py:118-134 | exactly the ten base keys plus a class key exactly when the sensor defines it; name, unique id, state topic, value template, unit, icon, availability and device fields hold the sensor's and the documented values |
| Mqtt.BasePayload | boilerjuice/app/mqtt.py:118-129 | exactly the ten fixed keys, holding the sensor's name, unit, icon and derived unique id and value template, the state and availability topics, `online`/`offline` and the device block |
| Mqtt.DiscoveryPlan | boilerjuice/app/mqtt.py:112-145 | one retained discovery message per sensor in table order, then `online` |
| Mqtt.PublishDiscovery | boilerjuice/app/mqtt.py:102-157 | false without a client (no library or a refused connection) and an exception for an invalid port; with a client, the messages sent are the discovery plan up to the first publish that raises; true exactly when the whole plan went out and the client disconnected; all retained at QoS 1 |
| Mqtt.PublishTankData | boilerjuice/app/mqtt.py:160-194 | no connection attempt unless MQTT is enabled; false without a client; an unconvertible port raises without sending; with a client, the messages sent are state then `online` up to the first publish that raises, all retained at QoS 1; true exactly when both went out and the client disconnected |
| Mqtt.TankDataSequence | boilerjuice/app/mqtt.py:172-186 | with MQTT enabled and a working broker, the data goes retained at QoS 1 to `boilerjuice/tank/state`, then `online` to `boilerjuice/tank/availability`, and true is returned |
| Mqtt.TankDataCutShort | boilerjuice/app/mqtt.py:172-194 | a publish that raises after k of the two messages leaves exactly those k sent and returns false |
| Mqtt.PublishOffline | boilerjuice/app/mqtt.py:197-206 | at most the single retained `offline` message; publish errors are swallowed |
| Mqtt.TestConnection | boilerjuice/app/mqtt.py:209-221 | success exactly when a client connects and disconnects cleanly; a missing library gives "paho-mqtt not installed"; a refused connection or a raising disconnect gives "Could not connect to MQTT broker"; an invalid port raises |
| Mqtt.DiscoverySequence | boilerjuice/app/mqtt.py:112-145 | with a working broker, discovery sends one message per sensor to `homeassistant/sensor/boilerjuice/<object_id>/config`, then `online` |
| Mqtt.DiscoveryTopicInjective | boilerjuice/app/mqtt.py:113-115 | two sensors share a discovery topic exactly when they share an object id |
| Mqtt.DiscoveryTopicsDistinct | boilerjuice/app/mqtt.py:35-63 | the three sensors have three different discovery topics |
| Mqtt.SensorClasses | boilerjuice/app/mqtt.py:35-63 | the percentage sensor has no device class, the capacity sensor no state class, the litres sensor both |

## Left out

- Browser automation (Playwright launch, cookies, screenshots, `get_page_info`, `get_screenshot_base64`, waits and timeouts) is left out. It is I/O, and its results enter as parameters.
- Regular-expression matching and `float()` parsing of captured text are left out. Each pattern is an opaque string handed to a search oracle that returns either a number or an unparseable capture. The same holds for the script scan's `re.findall`/`json.loads`: each fragment arrives as malformed, or as a map giving what `float()` does to each value.
- Text.Lower lower-cases ASCII letters only. Python's `str.lower` also folds non-ASCII letters, so marker matching on non-ASCII pages is weaker than the source's.
- File I/O for `config.json` and `history.json` is left out. The config and the history are values; a missing config file is an empty config and a missing history file an empty history. A corrupt history file is not modelled: there `_save_history` saves nothing while the cached reading is still set, and `get_last_data` without a cached reading returns nothing.
- Clocks are left out. The current time is a `now` string and `asyncio.sleep` is a returned duration. A cancellation at any await of a pass ends the loop, whether the await is the fetch, the interval sleep, the 60-second idle sleep or the 300-second error sleep; in the last case the cancellation leaves the error handler and ends the asyncio task rather than reaching the `break`, which the model does not distinguish.
- Floating-point special values (NaN, infinities) are not modelled: configuration and reading numbers are reals.
- FastAPI routing, the request-logging middleware, `get_status`, the health endpoint, the screenshot and page-info endpoints, and the click/type/key relay endpoints are left out; they pass values through. The relay endpoints' scraper side is modelled by Session.RelayInput.
- Configuration values that are JSON lists or objects are left out.
- TankReading.FromDict rejects a value whose type differs from its field's (a string under `litres`, a number under `timestamp`), where Python's `TankData(**d)` accepts any value; JSON null is not modelled.
- PyValues.StoredText reads a non-string stored email or password as the empty string.
- Server.FileName does not model pathlib normalisation (repeated or trailing slashes, `..`). Whether the path exists and is a file is a parameter of Server.ServeStatic.
- Mqtt.IntOf accepts an optional sign and ASCII decimal digits. Python's `int()` also accepts surrounding whitespace, underscores between digits and non-ASCII Unicode decimal digits; those strings are read as unconvertible here.
- Mqtt.ParseInt gives no number for text with surrounding whitespace or underscores between digits, which Python's `int()` reads; it is the string case of `Mqtt.IntOf` above.
- Mqtt.Send models a publish that raises after some messages; a raising `disconnect()` is a separate flag of the broker. A `disconnect()` that raises inside the error handler is swallowed by the source and needs no model.
- The standalone probe script and the add-on packaging are not part of this model.

=== FILE: extraction.dfy ===
/** The assembly cascade that turns what was found on a page into a tank reading.
    The element lookups, the regular-expression searches and the JSON decoding are
    inputs; what is modelled is the order in which their results are consulted. */
module Extraction {
  import opened Optional
  import opened TankReading

  /** The captured number of a successful pattern search, or a capture that `float`
      rejects once its commas are removed (commas alone, optionally followed by a lone dot). */
  datatype Capture = Number(value: real) | Unparseable

  /** What `float(v)` does with a value decoded from embedded JSON. */
  datatype Conversion = Converted(value: real) | ValueError | TypeError

  /** One `{...}` fragment found in a script: text `json.loads` rejects, or an object
      whose values are recorded by what `float` makes of them. */
  datatype Fragment = Malformed | Object(members: map<string, Conversion>)

  /** Everything the page offers to the extraction.
      The first four are the element lookups (absent when the element, its attribute or
      its number is missing); `search` is the regular-expression search over the page text;
      `scripts` holds, per script element, the fragments its text contains. */
  datatype Observation = Observation(
    usableOil: Option<real>,
    totalOil: Option<real>,
    capacityValue: Option<real>,
    percentValue: Option<real>,
    search: string -> Option<Capture>,
    scripts: seq<seq<Fragment>>)

  /** The partial field map being filled in. */
  datatype Fields = Fields(
    litres: Option<real>,
    totalLitres: Option<real>,
    capacity: Option<real>,
    percent: Option<real>,
    totalPercent: Option<real>)

  const LitresPatterns: seq<string> := [
    @"you have\s+([\d,]+\.?\d*)\s*litres?\s+of usable oil",
    @"([\d,]+\.?\d*)\s*litres?\s+(?:of\s+)?usable",
    @"usable[:\s]+([\d,]+\.?\d*)\s*(?:litres?|L)",
    @"([\d,]+\.?\d*)\s*litres?\s+remaining"]

  const TotalPatterns: seq<string> := [
    @"you have\s+([\d,]+\.?\d*)\s*litres?\s+of oil",
    @"total[:\s]+([\d,]+\.?\d*)\s*(?:litres?|L)",
    @"([\d,]+\.?\d*)\s*litres?\s+total"]

  const CapacityPatterns: seq<string> := [
    @"capacity[:\s]+([\d,]+\.?\d*)\s*(?:litres?|L)?",
    @"tank\s+size[:\s]+([\d,]+\.?\d*)",
    @"([\d,]+\.?\d*)\s*(?:litres?\s+)?capacity"]

  const PercentPatterns: seq<string> := [
    @"(\d+(?:\.\d+)?)\s*%",
    @"percentage[:\s]+(\d+(?:\.\d+)?)"]

  /** Python truthiness of `data.get(key)`: the field is present and not zero. */
  predicate Nonzero(v: Option<real>) {
    v.Some? && v.value != 0.0
  }

  /** No pattern before position `i` matches. */
  ghost predicate MissesBefore(patterns: seq<string>, search: string -> Option<Capture>, i: int)
    requires 0 <= i <= |patterns|
  {
    forall j | 0 <= j < i :: search(patterns[j]).None?
  }

  /** The result of the first pattern, in list order, that matches. */
  function FirstMatch(patterns: seq<string>, search: string -> Option<Capture>): (r: Option<Capture>)
    ensures r.None? <==> MissesBefore(patterns, search, |patterns|)
    ensures r.Some? ==> exists i | 0 <= i < |patterns| :: MissesBefore(patterns, search, i) && search(patterns[i]) == r
  {
    if patterns == [] then None
    else if search(patterns[0]).Some? then
      assert MissesBefore(patterns, search, 0);
      search(patterns[0])
    else
      var r := FirstMatch(patterns[1..], search);
      assert forall j | 1 <= j < |patterns| :: patterns[j] == patterns[1..][j - 1];
      assert r.Some? ==> exists i | 0 <= i < |patterns| :: MissesBefore(patterns, search, i) && search(patterns[i]) == r by {
        if r.Some? {
          var i :| 0 <= i < |patterns[1..]| && MissesBefore(patterns[1..], search, i) && search(patterns[1..][i]) == r;
          assert MissesBefore(patterns, search, i + 1);
        }
      }
      r
  }

  /** Whichever pattern matches first decides, whatever the later patterns say. */
  lemma FirstMatchWins(patterns: seq<string>, search: string -> Option<Capture>, i: nat)
    requires i < |patterns| && search(patterns[i]).Some?
    requires MissesBefore(patterns, search, i)
    ensures FirstMatch(patterns, search) == search(patterns[i])
  {
    var r := FirstMatch(patterns, search);
    var k :| 0 <= k < |patterns| && MissesBefore(patterns, search, k) && search(patterns[k]) == r;
    assert !(k < i);
    assert !(i < k);
  }

  /** A field after its text fallback, or the `ValueError` that ends the extraction. */
  datatype Filled = Kept(v: Option<real>) | Crashed

  /** The text fallback for one field: consulted only when the field is missing or zero. */
  function Fallback(current: Option<real>, patterns: seq<string>, search: string -> Option<Capture>): (r: Filled)
    ensures Nonzero(current) ==> r == Kept(current)
    ensures !Nonzero(current) && MissesBefore(patterns, search, |patterns|) ==> r == Kept(current)
    ensures r.Crashed? <==> !Nonzero(current) && FirstMatch(patterns, search) == Some(Unparseable)
    ensures !Nonzero(current) && FirstMatch(patterns, search).Some? && FirstMatch(patterns, search).value.Number? ==>
              r == Kept(Some(FirstMatch(patterns, search).value.value))
    ensures r.Kept? && r.v != current ==>
              && r.v.Some?
              && exists i | 0 <= i < |patterns| :: MissesBefore(patterns, search, i) && search(patterns[i]) == Some(Number(r.v.value))
  {
    if Nonzero(current) then Kept(current)
    else
      match FirstMatch(patterns, search)
      case None => Kept(current)
      case Some(Number(v)) => Kept(Some(v))
      case Some(Unparseable) => Crashed
  }

  /** A missing or zero field takes the number of the earliest matching pattern. */
  lemma FallbackTakesFirst(current: Option<real>, patterns: seq<string>, search: string -> Option<Capture>, i: nat, v: real)
    requires !Nonzero(current)
    requires i < |patterns| && MissesBefore(patterns, search, i) && search(patterns[i]) == Some(Number(v))
    ensures Fallback(current, patterns, search) == Kept(Some(v))
  {
    FirstMatchWins(patterns, search, i);
  }

  /** What one fragment does to the scan of its script. */
  datatype FragmentStep = Skip(fields: Fields) | Taken(fields: Fields) | Abort(fields: Fields)

  /** A well-formed fragment naming `litres` or `litre`: the scan acts on it. */
  predicate Usable(fragment: Fragment) {
    fragment.Object? && ("litres" in fragment.members || "litre" in fragment.members)
  }

  /** The fragment has `key`, and `float` of its value ends as `outcome`. */
  predicate Raises(fragment: Fragment, key: string, outcome: Conversion) {
    fragment.Object? && key in fragment.members && fragment.members[key] == outcome
  }

  /** The fragment has `key`, and `float` of its value succeeds. */
  predicate Converts(fragment: Fragment, key: string) {
    fragment.Object? && key in fragment.members && fragment.members[key].Converted?
  }

  /** One fragment: a malformed fragment or one without a litres key is skipped; otherwise
      its litres and capacity are assigned in turn.  A `ValueError` moves on to the next
      fragment keeping what was already assigned, a `TypeError` ends the whole scan. */
  function ApplyFragment(f: Fields, fragment: Fragment): (r: FragmentStep)
    ensures r.fields.totalLitres == f.totalLitres && r.fields.percent == f.percent
    ensures r.fields.totalPercent == f.totalPercent
    ensures !Usable(fragment) ==> r == Skip(f)
    ensures r.Taken? <==> Usable(fragment) && !Raises(fragment, "litres", ValueError) && !Raises(fragment, "litres", TypeError)
                          && !Raises(fragment, "capacity", ValueError) && !Raises(fragment, "capacity", TypeError)
    ensures r.Abort? <==> Usable(fragment) && (Raises(fragment, "litres", TypeError) ||
                            (!Raises(fragment, "litres", ValueError) && Raises(fragment, "capacity", TypeError)))
    ensures r.fields.litres == (if Usable(fragment) && Converts(fragment, "litres") then Some(fragment.members["litres"].value) else f.litres)
    ensures r.fields.capacity ==
              if Usable(fragment) && !Raises(fragment, "litres", ValueError) && !Raises(fragment, "litres", TypeError)
                 && Converts(fragment, "capacity")
              then Some(fragment.members["capacity"].value) else f.capacity
  {
    match fragment
    case Malformed => Skip(f)
    case Object(m) =>
      if "litres" !in m && "litre" !in m then Skip(f)
      else
        var withLitres :=
          if "litres" !in m then Skip(f)
          else match m["litres"]
            case Converted(v) => Taken(f.(litres := Some(v)))
            case ValueError => Skip(f)
            case TypeError => Abort(f);
        if "litres" in m && !withLitres.Taken? then withLitres
        else
          var g := withLitres.fields;
          if "capacity" !in m then Taken(g)
          else match m["capacity"]
            case Converted(c) => Taken(g.(capacity := Some(c)))
            case ValueError => Skip(g)
            case TypeError => Abort(g)
  }

  /** Scanning one script: the first fragment that is taken ends the scan of that script. */
  function ScanScript(f: Fields, fragments: seq<Fragment>): (r: FragmentStep)
    ensures !r.Skip?
    ensures r.fields.totalLitres == f.totalLitres && r.fields.percent == f.percent
    ensures r.fields.totalPercent == f.totalPercent
    decreases |fragments|
  {
    if fragments == [] then Taken(f)
    else
      match ApplyFragment(f, fragments[0])
      case Skip(g) => ScanScript(g, fragments[1..])
      case Taken(g) => Taken(g)
      case Abort(g) => Abort(g)
  }

  /** The field map after scanning scripts, and whether a `TypeError` ended the scan. */
  datatype Scan = Scan(fields: Fields, aborted: bool)

  /** Scanning every script in document order; an abort keeps what was assigned so far
      and leaves every later script unread. */
  function ScanScripts(f: Fields, scripts: seq<seq<Fragment>>): (r: Scan)
    ensures r.fields.totalLitres == f.totalLitres && r.fields.percent == f.percent && r.fields.totalPercent == f.totalPercent
    ensures scripts == [] ==> r == Scan(f, false)
    decreases |scripts|
  {
    if scripts == [] then Scan(f, false)
    else
      var step := ScanScript(f, scripts[0]);
      if step.Abort? then Scan(step.fields, true) else ScanScripts(step.fields, scripts[1..])
  }

  /** One more script: scanned over what the earlier scripts left, unless they aborted. */
  lemma {:induction false} ScanScriptsSnoc(f: Fields, scripts: seq<seq<Fragment>>, last: seq<Fragment>)
    ensures var before := ScanScripts(f, scripts);
            var step := ScanScript(before.fields, last);
            ScanScripts(f, scripts + [last]) == if before.aborted then before else Scan(step.fields, step.Abort?)
    decreases |scripts|
  {
    if scripts == [] {
      assert scripts + [last] == [last];
    } else {
      assert (scripts + [last])[1..] == scripts[1..] + [last];
      var step := ScanScript(f, scripts[0]);
      if !step.Abort? {
        ScanScriptsSnoc(step.fields, scripts[1..], last);
      }
    }
  }

  /** A `TypeError` in one script ends the scan: no later script is read. */
  lemma AbortEndsScan(f: Fields, first: seq<Fragment>, rest: seq<seq<Fragment>>)
    requires ScanScript(f, first).Abort?
    ensures ScanScripts(f, [first] + rest) == Scan(ScanScript(f, first).fields, true)
  {
    assert ([first] + rest)[0] == first;
  }

  /** A later script overrides the litres found before it, when no earlier script aborted. */
  lemma LaterScriptOverrides(f: Fields, scripts: seq<seq<Fragment>>, last: seq<Fragment>, i: nat, v: real)
    requires !ScanScripts(f, scripts).aborted
    requires i < |last| && last[i].Object?
    requires forall j | 0 <= j < i :: Passes(ScanScripts(f, scripts).fields, last[j])
    requires "litres" in last[i].members && last[i].members["litres"] == Converted(v)
    requires "capacity" in last[i].members ==> last[i].members["capacity"].Converted?
    ensures ScanScripts(f, scripts + [last]) == Scan(ScanScript(ScanScripts(f, scripts).fields, last).fields, false)
    ensures ScanScripts(f, scripts + [last]).fields.litres == Some(v)
  {
    ScanScriptsSnoc(f, scripts, last);
    FragmentOverrides(ScanScripts(f, scripts).fields, last, i, v);
  }

  /** A fragment `json.loads` rejects is skipped without affecting the rest of the scan. */
  lemma {:induction false} MalformedIgnored(f: Fields, fragments: seq<Fragment>, k: nat)
    requires k < |fragments| && fragments[k].Malformed?
    ensures ScanScript(f, fragments) == ScanScript(f, fragments[..k] + fragments[k + 1..])
    decreases k
  {
    if k > 0 {
      var rest := fragments[1..];
      assert fragments[..k] + fragments[k + 1..] == [fragments[0]] + (rest[..k - 1] + rest[k..]);
      match ApplyFragment(f, fragments[0])
      case Skip(g) =>
        MalformedIgnored(g, rest, k - 1);
      case Taken(g) =>
      case Abort(g) =>
    } else {
      assert fragments[..k] + fragments[k + 1..] == fragments[1..];
    }
  }

  /** The scan passes over the fragment without changing anything: it is malformed, names
      no litres, or its litres value raises `ValueError`. */
  predicate Passes(f: Fields, fragment: Fragment) {
    ApplyFragment(f, fragment) == Skip(f)
  }

  /** A fragment whose litres value raises `ValueError` is passed over with the fields
      unchanged, so it never blocks a later fragment from overriding. */
  lemma LitresValueErrorPasses(f: Fields, fragment: Fragment)
    requires fragment.Object? && "litres" in fragment.members && fragment.members["litres"] == ValueError
    ensures Passes(f, fragment)
  {
  }

  /** In a script whose first usable fragment carries a convertible litres value (and a
      convertible capacity, if any), that fragment overrides whatever was found before. */
  lemma {:induction false} FragmentOverrides(f: Fields, fragments: seq<Fragment>, i: nat, v: real)
    requires i < |fragments| && fragments[i].Object?
    requires forall j | 0 <= j < i :: Passes(f, fragments[j])
    requires "litres" in fragments[i].members && fragments[i].members["litres"] == Converted(v)
    requires "capacity" in fragments[i].members ==> fragments[i].members["capacity"].Converted?
    ensures ScanScript(f, fragments).Taken?
    ensures ScanScript(f, fragments).fields.litres == Some(v)
    ensures ScanScript(f, fragments).fields.capacity ==
              if "capacity" in fragments[i].members then Some(fragments[i].members["capacity"].value) else f.capacity
    decreases i
  {
    if i > 0 {
      assert ApplyFragment(f, fragments[0]) == Skip(f);
      FragmentOverrides(f, fragments[1..], i - 1, v);
    }
  }

  /** A script none of whose fragments changes anything is read to its end with nothing changed. */
  lemma {:induction false} QuietScript(f: Fields, fragments: seq<Fragment>)
    requires forall j | 0 <= j < |fragments| :: Passes(f, fragments[j])
    ensures ScanScript(f, fragments) == Taken(f)
    decreases |fragments|
  {
    if fragments != [] {
      assert Passes(f, fragments[0]);
      QuietScript(f, fragments[1..]);
    }
  }

  /** Scripts none of whose fragments changes anything leave the fields as they were. */
  lemma {:induction false} QuietScan(f: Fields, scripts: seq<seq<Fragment>>)
    requires forall i, j | 0 <= i < |scripts| && 0 <= j < |scripts[i]| :: Passes(f, scripts[i][j])
    ensures ScanScripts(f, scripts) == Scan(f, false)
    decreases |scripts|
  {
    if scripts != [] {
      QuietScript(f, scripts[0]);
      QuietScan(f, scripts[1..]);
    }
  }

  /** Scanning two runs of scripts: the second run continues from the first, unless it aborted. */
  lemma {:induction false} ScanScriptsAppend(f: Fields, first: seq<seq<Fragment>>, second: seq<seq<Fragment>>)
    ensures var before := ScanScripts(f, first);
            ScanScripts(f, first + second) == if before.aborted then before else ScanScripts(before.fields, second)
    decreases |first|
  {
    if first == [] {
      assert first + second == second;
    } else {
      assert (first + second)[0] == first[0];
      assert (first + second)[1..] == first[1..] + second;
      var step := ScanScript(f, first[0]);
      if !step.Abort? {
        ScanScriptsAppend(step.fields, first[1..], second);
      }
    }
  }

  /** A script whose first litres-bearing fragment converts to `v`, read after scripts that
      did not abort and before scripts that change nothing, leaves litres at `v`. */
  lemma ScanOverride(f: Fields, before: seq<seq<Fragment>>, script: seq<Fragment>, after: seq<seq<Fragment>>, k: nat, v: real)
    requires !ScanScripts(f, before).aborted
    requires k < |script| && script[k].Object?
    requires forall j | 0 <= j < k :: Passes(ScanScripts(f, before).fields, script[j])
    requires "litres" in script[k].members && script[k].members["litres"] == Converted(v)
    requires "capacity" in script[k].members ==> script[k].members["capacity"].Converted?
    requires forall m, j | 0 <= m < |after| && 0 <= j < |after[m]| ::
               Passes(ScanScript(ScanScripts(f, before).fields, script).fields, after[m][j])
    ensures ScanScripts(f, before + [script] + after).fields.litres == Some(v)
  {
    var first := ScanScripts(f, before);
    FragmentOverrides(first.fields, script, k, v);
    var step := ScanScript(first.fields, script);
    ScanScriptsSnoc(f, before, script);
    QuietScan(step.fields, after);
    ScanScriptsAppend(f, before + [script], after);
  }

  /** The field map after the element lookups and the four text fallbacks (litres, total,
      capacity, percent, in that order); absent when a fallback crashed. */
  function AfterFallbacks(obs: Observation): (r: Option<Fields>)
    ensures r.None? <==>
              || Fallback(obs.usableOil, LitresPatterns, obs.search).Crashed?
              || Fallback(obs.totalOil, TotalPatterns, obs.search).Crashed?
              || Fallback(obs.capacityValue, CapacityPatterns, obs.search).Crashed?
              || Fallback(obs.percentValue, PercentPatterns, obs.search).Crashed?
    ensures r.Some? ==>
              && r.value.litres == Fallback(obs.usableOil, LitresPatterns, obs.search).v
              && r.value.totalLitres == Fallback(obs.totalOil, TotalPatterns, obs.search).v
              && r.value.capacity == Fallback(obs.capacityValue, CapacityPatterns, obs.search).v
              && r.value.percent == Fallback(obs.percentValue, PercentPatterns, obs.search).v
              && r.value.totalPercent.None?
  {
    var litres := Fallback(obs.usableOil, LitresPatterns, obs.search);
    if litres.Crashed? then None else
    var total := Fallback(obs.totalOil, TotalPatterns, obs.search);
    if total.Crashed? then None else
    var capacity := Fallback(obs.capacityValue, CapacityPatterns, obs.search);
    if capacity.Crashed? then None else
    var percent := Fallback(obs.percentValue, PercentPatterns, obs.search);
    if percent.Crashed? then None else
    Some(Fields(litres.v, total.v, capacity.v, percent.v, None))
  }

  /** The field map after the fallbacks and the script scan; absent when a fallback crashed.
      A `TypeError` in the scan keeps what the scan had assigned until then. */
  function Gather(obs: Observation): (r: Option<Fields>)
    ensures r.None? <==>
              || Fallback(obs.usableOil, LitresPatterns, obs.search).Crashed?
              || Fallback(obs.totalOil, TotalPatterns, obs.search).Crashed?
              || Fallback(obs.capacityValue, CapacityPatterns, obs.search).Crashed?
              || Fallback(obs.percentValue, PercentPatterns, obs.search).Crashed?
    ensures r.Some? ==> r.value.totalPercent.None?
    ensures r.Some? ==> r.value.totalLitres == Fallback(obs.totalOil, TotalPatterns, obs.search).v
    ensures r.Some? ==> r.value.percent == Fallback(obs.percentValue, PercentPatterns, obs.search).v
    ensures r.Some? ==> r.value == ScanScripts(AfterFallbacks(obs).value, obs.scripts).fields
  {
    match AfterFallbacks(obs)
    case None => None
    case Some(f) => Some(ScanScripts(f, obs.scripts).fields)
  }

  /** When no script fragment changes anything, the scan leaves the fallbacks' litres and capacity. */
  lemma GatherWithoutOverride(obs: Observation)
    requires AfterFallbacks(obs).Some?
    requires forall i, j | 0 <= i < |obs.scripts| && 0 <= j < |obs.scripts[i]| :: Passes(AfterFallbacks(obs).value, obs.scripts[i][j])
    ensures Gather(obs).Some?
    ensures Gather(obs).value.litres == Fallback(obs.usableOil, LitresPatterns, obs.search).v
    ensures Gather(obs).value.capacity == Fallback(obs.capacityValue, CapacityPatterns, obs.search).v
  {
    QuietScan(AfterFallbacks(obs).value, obs.scripts);
  }

  /** The scan state just before script `i` is read. */
  function ScanBefore(obs: Observation, i: nat): Scan
    requires AfterFallbacks(obs).Some? && i <= |obs.scripts|
  {
    ScanScripts(AfterFallbacks(obs).value, obs.scripts[..i])
  }

  /** Script `i` overrides litres with `v` (its first litres-bearing fragment converts), and
      no later script changes anything: the gathered litres is `v`, whatever the fallback found. */
  lemma GatherScriptOverride(obs: Observation, i: nat, k: nat, v: real)
    requires AfterFallbacks(obs).Some? && i < |obs.scripts| && !ScanBefore(obs, i).aborted
    requires k < |obs.scripts[i]| && obs.scripts[i][k].Object?
    requires forall j | 0 <= j < k :: Passes(ScanBefore(obs, i).fields, obs.scripts[i][j])
    requires "litres" in obs.scripts[i][k].members && obs.scripts[i][k].members["litres"] == Converted(v)
    requires "capacity" in obs.scripts[i][k].members ==> obs.scripts[i][k].members["capacity"].Converted?
    requires forall m, j | i < m < |obs.scripts| && 0 <= j < |obs.scripts[m]| ::
               Passes(ScanScript(ScanBefore(obs, i).fields, obs.scripts[i]).fields, obs.scripts[m][j])
    ensures Gather(obs).Some? && Gather(obs).value.litres == Some(v)
  {
    var f := AfterFallbacks(obs).value;
    var scripts, before, later := obs.scripts, obs.scripts[..i], obs.scripts[i + 1..];
    assert scripts == before + [scripts[i]] + later;
    assert ScanBefore(obs, i) == ScanScripts(f, before);
    var step := ScanScript(ScanScripts(f, before).fields, scripts[i]).fields;
    forall m, j | 0 <= m < |later| && 0 <= j < |later[m]|
      ensures Passes(step, later[m][j])
    {
      assert later[m] == scripts[i + 1 + m];
    }
    ScanOverride(f, before, scripts[i], later, k, v);
    assert ScanScripts(f, scripts).fields.litres == Some(v);
  }

  /** The validity test and the defaults applied to the final field map. */
  function Assemble(f: Fields, now: string): (r: Option<TankData>)
    ensures r.Some? <==> Nonzero(f.litres) || Nonzero(f.percent)
    ensures r.Some? ==> r.value.litres != 0.0 || r.value.percent != 0.0
    ensures r.Some? ==> r.value.levelName == LevelName(r.value.percent)
    ensures r.Some? ==> r.value.litres == f.litres.GetOr(0.0) && r.value.percent == f.percent.GetOr(0.0)
    ensures r.Some? && f.percent.None? ==> r.value.levelName == "Low"
    ensures r.Some? && f.totalLitres.None? ==> r.value.totalLitres == r.value.litres
    ensures r.Some? && f.totalLitres.Some? ==> r.value.totalLitres == f.totalLitres.value
    ensures r.Some? && f.totalPercent.None? ==> r.value.totalPercent == r.value.percent
    ensures r.Some? && f.capacity.None? ==> r.value.capacity == 0.0
    ensures r.Some? && f.capacity.Some? ==> r.value.capacity == f.capacity.value
    ensures r.Some? && now != "" ==> r.value.timestamp == now
  {
    if Nonzero(f.litres) || Nonzero(f.percent) then
      var litres := f.litres.GetOr(0.0);
      var percent := f.percent.GetOr(0.0);
      Some(TankData(
        litres := litres,
        totalLitres := f.totalLitres.GetOr(litres),
        percent := percent,
        totalPercent := f.totalPercent.GetOr(percent),
        capacity := f.capacity.GetOr(0.0),
        levelName := LevelName(percent),
        timestamp := Stamp(None, now)))
    else None
  }

  /** `_extract_tank_data` over its abstract inputs: a reading comes out exactly when no
      fallback crashed and litres or percent ended up non-zero; the total percentage always
      equals the percentage, since no step ever sets it. */
  function Extract(obs: Observation, now: string): (r: Option<TankData>)
    ensures r.Some? <==> Gather(obs).Some? && (Nonzero(Gather(obs).value.litres) || Nonzero(Gather(obs).value.percent))
    ensures r.Some? ==> r.value.totalPercent == r.value.percent
    ensures r.Some? ==> r.value.litres != 0.0 || r.value.percent != 0.0
    ensures r.Some? ==> r.value.levelName == LevelName(r.value.percent)
    ensures r.Some? ==>
              && r.value.litres == Gather(obs).value.litres.GetOr(0.0)
              && r.value.capacity == Gather(obs).value.capacity.GetOr(0.0)
              && r.value.percent == Gather(obs).value.percent.GetOr(0.0)
              && r.value.totalLitres == Gather(obs).value.totalLitres.GetOr(r.value.litres)
    ensures r.Some? && now != "" ==> r.value.timestamp == now
  {
    match Gather(obs)
    case None => None
    case Some(f) => Assemble(f, now)
  }

  /** A percentage found by the element lookup is never replaced by a text match. */
  lemma ElementPercentKept(obs: Observation, now: string)
    requires Nonzero(obs.percentValue)
    ensures Gather(obs).Some? ==> Gather(obs).value.percent == obs.percentValue
    ensures Extract(obs, now).Some? <==> Gather(obs).Some?
    ensures Extract(obs, now).Some? ==> Extract(obs, now).value.percent == obs.percentValue.value
  {
  }
}

=== FILE: history.dfy ===
/** The capped history log and the two queries that read it. */
module History {
  import opened Optional
  import opened TankReading

  const MaxEntries: nat := 500

  function Min(a: int, b: int): int {
    if a <= b then a else b
  }

  /** `s` ends `t`: the order of the kept entries is the order of `t`. */
  predicate IsSuffix<T(==)>(s: seq<T>, t: seq<T>) {
    |s| <= |t| && s == t[|t| - |s|..]
  }

  /** Python's `s[-n:]` for a positive `n`: the last `n` entries, or all of them when there are fewer. */
  function Last<T>(s: seq<T>, n: nat): (r: seq<T>)
    requires n > 0
  {
    if |s| > n then s[|s| - n..] else s
  }

  /** `_save_history`: append the reading's dictionary form, then keep the last 500 entries. */
  function Append(h: seq<Dict>, t: TankData): (r: seq<Dict>)
    ensures |r| == Min(|h| + 1, MaxEntries)
    ensures IsSuffix(r, h + [ToDict(t)])
    ensures r[|r| - 1] == ToDict(t)
  {
    Last(h + [ToDict(t)], MaxEntries)
  }

  /** Below the cap nothing is evicted. */
  lemma AppendBelowCap(h: seq<Dict>, t: TankData)
    requires |h| < MaxEntries
    ensures Append(h, t) == h + [ToDict(t)]
  {
  }

  /** At the cap the oldest entries go first and the rest keep their order. */
  lemma AppendAtCap(h: seq<Dict>, t: TankData)
    requires |h| >= MaxEntries
    ensures Append(h, t) == h[|h| - (MaxEntries - 1)..] + [ToDict(t)]
  {
    assert (h + [ToDict(t)])[|h| + 1 - MaxEntries..] == h[|h| - (MaxEntries - 1)..] + [ToDict(t)];
  }

  /** Appending readings one at a time. */
  function AppendAll(h: seq<Dict>, ts: seq<TankData>): seq<Dict>
    decreases |ts|
  {
    if ts == [] then h else AppendAll(Append(h, ts[0]), ts[1..])
  }

  function Dicts(ts: seq<TankData>): (r: seq<Dict>)
    ensures |r| == |ts|
    ensures forall i | 0 <= i < |ts| :: r[i] == ToDict(ts[i])
  {
    seq(|ts|, i requires 0 <= i < |ts| => ToDict(ts[i]))
  }

  lemma LastOfLast<T>(s: seq<T>, x: T, n: nat)
    requires n > 0
    ensures Last(Last(s, n) + [x], n) == Last(s + [x], n)
  {
    if |s| > n {
      var k := s[|s| - n..];
      assert (k + [x])[1..] == (s + [x])[|s| + 1 - n..];
    }
  }

  /** However many readings are appended, the log is the last 500 of the old log followed
      by the new readings: eviction is oldest-first and order is preserved. */
  lemma {:induction false} AppendAllKeepsLast(h: seq<Dict>, ts: seq<TankData>)
    requires ts != []
    ensures AppendAll(h, ts) == Last(h + Dicts(ts), MaxEntries)
    decreases |ts|
  {
    var d := ToDict(ts[0]);
    var rest := Dicts(ts[1..]);
    assert h + Dicts(ts) == (h + [d]) + rest by {
      assert Dicts(ts) == [d] + rest;
    }
    if |ts| == 1 {
      assert rest == [];
    } else {
      assert AppendAll(h, ts) == Last(Last(h + [d], MaxEntries) + rest, MaxEntries) by {
        AppendAllKeepsLast(Append(h, ts[0]), ts[1..]);
      }
      LastOfLastAll(h + [d], rest, MaxEntries);
    }
  }

  /** Trimming before appending more never changes the trimmed result. */
  lemma {:induction false} LastOfLastAll<T>(s: seq<T>, xs: seq<T>, n: nat)
    requires n > 0 && xs != []
    ensures Last(Last(s, n) + xs, n) == Last(s + xs, n)
    decreases |xs|
  {
    var x := xs[|xs| - 1];
    var init := xs[..|xs| - 1];
    assert xs == init + [x];
    assert Last(s, n) + xs == (Last(s, n) + init) + [x];
    assert s + xs == (s + init) + [x];
    if init == [] {
      LastOfLast(s, x, n);
    } else {
      LastOfLastAll(s, init, n);
      LastOfLast(Last(s, n) + init, x, n);
      LastOfLast(s + init, x, n);
    }
  }

  /** Python's slice start `s[start:]`: negative starts count from the end, both are clipped. */
  function SliceStart(len: nat, start: int): (r: nat)
    ensures r <= len
  {
    if start < 0 then (if len + start < 0 then 0 else len + start)
    else if start > len then len
    else start
  }

  /** `get_history(limit)`: `history[-limit:]`. */
  function GetHistory(h: seq<Dict>, limit: int): (r: seq<Dict>)
    ensures IsSuffix(r, h)
    ensures limit == 0 ==> r == h
    ensures limit >= |h| ==> r == h
    ensures 0 < limit <= |h| ==> |r| == limit
    ensures limit < 0 ==> |r| == (if |h| + limit < 0 then 0 else |h| + limit)
  {
    h[SliceStart(|h|, -limit)..]
  }

  /** `get_last_data`: the cached reading, else the newest history entry, which then becomes
      the cache.  The answer is the dictionary form; an entry the constructor rejects gives nothing. */
  function GetLastData(cache: Option<TankData>, h: seq<Dict>, now: string): (r: (Option<Dict>, Option<TankData>))
    ensures cache.Some? ==> r == (Some(ToDict(cache.value)), cache)
    ensures cache.None? && h == [] ==> r == (None, None)
    ensures cache.None? && h != [] ==> r.1 == FromDict(h[|h| - 1], now)
    ensures r.0.Some? <==> r.1.Some?
    ensures r.1.Some? ==> r.0 == Some(ToDict(r.1.value))
  {
    if cache.Some? then (Some(ToDict(cache.value)), cache)
    else if h == [] then (None, None)
    else
      match FromDict(h[|h| - 1], now)
      case Some(t) => (Some(ToDict(t)), Some(t))
      case None => (None, None)
  }

  /** After a cold start the last reading appended is the one reported. */
  lemma LastDataAfterAppend(h: seq<Dict>, t: TankData, now: string)
    requires t.timestamp != ""
    ensures GetLastData(None, Append(h, t), now) == (Some(ToDict(t)), Some(t))
  {
    RoundTrip(t, now);
  }
}

=== FILE: mqtt.dfy ===
/** The messages the Home Assistant publisher sends, as ordered plans of
    (topic, payload, retain, qos).  The broker enters as an environment that may
    lack the client library, refuse the connection, or raise after some publishes. */
module Mqtt {
  import opened Optional
  import opened PyValues
  import TankReading

  const DiscoveryPrefix: string := "homeassistant"
  const StateTopic: string := "boilerjuice/tank/state"
  const AvailabilityTopic: string := "boilerjuice/tank/availability"
  const Online: string := "online"
  const Offline: string := "offline"
  const DefaultHost: string := "core-mosquitto"
  const DefaultPort: int := 1883
  const QoS: nat := 1

  datatype Sensor = Sensor(
    objectId: string,
    name: string,
    valueKey: string,
    unit: string,
    deviceClass: Option<string>,
    icon: string,
    stateClass: Option<string>)

  const Sensors: seq<Sensor> := [
    Sensor("oil_remaining", "Oil Remaining", "litres", "L", Some("volume_storage"), "mdi:oil", Some("measurement")),
    Sensor("oil_percentage", "Oil Level", "percent", "%", None, "mdi:gauge", Some("measurement")),
    Sensor("tank_capacity", "Tank Capacity", "capacity", "L", Some("volume_storage"), "mdi:barrel", None)]

  datatype Device = Device(identifiers: seq<string>, name: string, manufacturer: string, model: string, swVersion: string)

  const DeviceInfo: Device := Device(["boilerjuice_tank"], "BoilerJuice Oil Tank", "BoilerJuice", "Oil Tank Monitor", "1.0.0")

  /** A value in a discovery payload. */
  datatype Field = FText(text: string) | FDevice(device: Device)

  datatype Payload = Plain(text: string) | Discovery(fields: map<string, Field>) | StateData(data: TankReading.Dict)

  datatype Message = Message(topic: string, payload: Payload, retain: bool, qos: nat)

  /** Whether the client library is installed, whether connecting succeeds, after how
      many successful publishes a publish raises (`None`: never), and whether `disconnect()`
      raises. */
  datatype Broker = Broker(installed: bool, reachable: bool, failsAfter: Option<nat>, disconnectRaises: bool)

  /** Where the client connects and with which login, if any. */
  datatype Settings = Settings(host: JsonValue, port: int, login: Option<(JsonValue, JsonValue)>)

  /** `_get_mqtt_client`: no library, a port `int()` rejects (which raises out of the caller),
      a refused connection, or a connected client. */
  datatype Connection = Unavailable | PortInvalid | Refused(settings: Settings) | Connected(settings: Settings)

  /** What a publishing function returns: nothing, a boolean, or an exception. */
  datatype Return = Nothing | Bool(b: bool) | Raises

  /** The messages that went out, the connection attempt if one was made, and the return value. */
  datatype Publication = Publication(messages: seq<Message>, connection: Option<Connection>, result: Return)

  // ── Client configuration ──────────────────────────────────

  predicate IsDigit(c: char) {
    '0' <= c <= '9'
  }

  function DigitValue(c: char): (d: nat)
    requires IsDigit(c)
    ensures d < 10
  {
    (c as int - '0' as int) as nat
  }

  /** The number a run of decimal digits spells. */
  function Digits(s: string): nat
    requires forall i | 0 <= i < |s| :: IsDigit(s[i])
  {
    if s == [] then 0 else Digits(s[..|s| - 1]) * 10 + DigitValue(s[|s| - 1])
  }

  /** `int(text)` for an optionally signed run of decimal digits. */
  function ParseInt(s: string): (r: Option<int>)
    ensures s != [] && (forall i | 0 <= i < |s| :: IsDigit(s[i])) ==> r == Some(Digits(s))
    ensures |s| >= 2 && s[0] == '-' && (forall i | 0 <= i < |s[1..]| :: IsDigit(s[1..][i])) ==> r == Some(-(Digits(s[1..]) as int))
    ensures |s| >= 2 && s[0] == '+' && (forall i | 0 <= i < |s[1..]| :: IsDigit(s[1..][i])) ==> r == Some(Digits(s[1..]))
    ensures s == [] || s == "-" || s == "+" ==> r.None?
    ensures (exists i | 0 <= i < |s| :: !IsDigit(s[i]) && !(i == 0 && s[0] in "+-")) ==> r.None?
  {
    var negative := |s| > 0 && s[0] == '-';
    var signed := |s| > 0 && (s[0] == '-' || s[0] == '+');
    var body := if signed then s[1..] else s;
    assert forall i | 0 <= i < |body| :: body[i] == s[if signed then i + 1 else i];
    if body != [] && forall i | 0 <= i < |body| :: IsDigit(body[i]) then
      var n: int := Digits(body);
      Some(if negative then -n else n)
    else None
  }

  /** `int(v)`; `None` where Python raises. */
  function IntOf(v: JsonValue): (r: Option<int>)
    ensures v.JNull? ==> r.None?
    ensures v.JInt? ==> r == Some(v.i)
    ensures v.JBool? ==> r == Some(if v.b then 1 else 0)
    ensures v.JFloat? && v.r >= 0.0 ==> r.Some? && r.value as real <= v.r < r.value as real + 1.0
    ensures v.JFloat? && v.r < 0.0 ==> r.Some? && r.value as real - 1.0 < v.r <= r.value as real
    ensures v.JStr? && v.s != [] && (forall i | 0 <= i < |v.s| :: IsDigit(v.s[i])) ==> r == Some(Digits(v.s))
    ensures v.JStr? && v.s == [] ==> r.None?
    ensures v.JStr? && |v.s| >= 2 && v.s[0] == '-' && (forall i | 0 <= i < |v.s[1..]| :: IsDigit(v.s[1..][i])) ==>
              r == Some(-(Digits(v.s[1..]) as int))
    ensures v.JStr? && |v.s| >= 2 && v.s[0] == '+' && (forall i | 0 <= i < |v.s[1..]| :: IsDigit(v.s[1..][i])) ==>
              r == Some(Digits(v.s[1..]))
    ensures v.JStr? && (v.s == "-" || v.s == "+") ==> r.None?
    ensures v.JStr? && (exists i | 0 <= i < |v.s| :: !IsDigit(v.s[i]) && !(i == 0 && v.s[0] in "+-")) ==> r.None?
  {
    match v
    case JNull => None
    case JBool(b) => Some(if b then 1 else 0)
    case JInt(i) => Some(i)
    case JFloat(r) => Some(if r >= 0.0 then r.Floor else -((-r).Floor))
    case JStr(s) => ParseInt(s)
  }

  /** `_get_mqtt_client`: host and port default to the local broker, and a login is set
      only when a user name is configured. */
  function Connect(c: Config, broker: Broker): (r: Connection)
    ensures !broker.installed <==> r.Unavailable?
    ensures r.PortInvalid? <==> broker.installed && IntOf(Get(c, "mqtt_port", JInt(DefaultPort))).None?
    ensures r.Connected? <==> broker.installed && broker.reachable && !r.PortInvalid?
    ensures r.Refused? || r.Connected? ==>
              && r.settings.host == Get(c, "mqtt_host", JStr(DefaultHost))
              && ("mqtt_port" !in c ==> r.settings.port == DefaultPort)
              && (r.settings.login.Some? <==> Enabled(c, "mqtt_user"))
              && (r.settings.login.Some? ==> r.settings.login.value == (c["mqtt_user"], Get(c, "mqtt_password", JStr(""))))
    ensures r.Refused? || r.Connected? ==> Some(r.settings.port) == IntOf(Get(c, "mqtt_port", JInt(DefaultPort)))
  {
    if !broker.installed then Unavailable
    else
      match IntOf(Get(c, "mqtt_port", JInt(DefaultPort)))
      case None => PortInvalid
      case Some(port) =>
        var user := Get(c, "mqtt_user", JStr(""));
        var login := if Truthy(user) then Some((user, Get(c, "mqtt_password", JStr("")))) else None;
        var settings := Settings(Get(c, "mqtt_host", JStr(DefaultHost)), port, login);
        if broker.reachable then Connected(settings) else Refused(settings)
  }

  /** With nothing configured the client goes to `core-mosquitto:1883` without a login. */
  lemma DefaultClient(broker: Broker)
    requires broker.installed && broker.reachable
    ensures Connect(map[], broker) == Connected(Settings(JStr(DefaultHost), DefaultPort, None))
  {
  }

  /** The digit character for a value below ten. */
  function DigitChar(d: nat): (c: char)
    requires d < 10
    ensures IsDigit(c) && DigitValue(c) == d
  {
    ('0' as int + d) as char
  }

  /** `str(n)` for a natural number: its decimal digits, most significant first. */
  function Decimal(n: nat): (s: string)
    ensures s != [] && forall i | 0 <= i < |s| :: IsDigit(s[i])
    ensures n < 10 <==> |s| == 1
  {
    if n < 10 then [DigitChar(n)] else Decimal(n / 10) + [DigitChar(n % 10)]
  }

  /** The digits of `Decimal(n)` spell `n`. */
  lemma {:induction false} DecimalDigits(n: nat)
    ensures Digits(Decimal(n)) == n
  {
    var s := Decimal(n);
    if n < 10 {
      assert s[..0] == [];
    } else {
      assert s[..|s| - 1] == Decimal(n / 10);
      DecimalDigits(n / 10);
    }
  }

  /** `int(str(n)) == n`: a port written as decimal text reads back as the same number. */
  lemma ParseDecimal(n: nat)
    ensures IntOf(JStr(Decimal(n))) == Some(n)
  {
    DecimalDigits(n);
  }

  /** A configured port given as decimal text is the port the client connects to. */
  lemma PortRoundTrip(c: Config, broker: Broker, n: nat)
    requires broker.installed && broker.reachable
    requires "mqtt_port" in c && c["mqtt_port"] == JStr(Decimal(n))
    ensures Connect(c, broker).Connected? && Connect(c, broker).settings.port == n
  {
    ParseDecimal(n);
  }

  // ── Publishing ─────────────────────────────────────────────

  /** Publishing a plan in order until the broker raises; the flag tells whether all went out. */
  function Send(plan: seq<Message>, broker: Broker): (r: (seq<Message>, bool))
    ensures |r.0| <= |plan| && r.0 == plan[..|r.0|]
    ensures r.1 <==> r.0 == plan
    ensures broker.failsAfter.None? ==> r == (plan, true)
    ensures r.1 <==> broker.failsAfter.None? || broker.failsAfter.value >= |plan|
    ensures !r.1 ==> |r.0| == broker.failsAfter.value
  {
    match broker.failsAfter
    case Some(k) => if k < |plan| then (plan[..k], false) else (plan, true)
    case None => (plan, true)
  }

  function Retained(topic: string, payload: Payload): Message {
    Message(topic, payload, true, QoS)
  }

  /** A string key of the sensor table counts only when it is set and non-empty. */
  predicate Defined(v: Option<string>) {
    v.Some? && v.value != ""
  }

  function DiscoveryTopic(s: Sensor): string {
    DiscoveryPrefix + "/sensor/boilerjuice/" + s.objectId + "/config"
  }

  /** The keys every discovery payload carries. */
  const BaseKeys: set<string> := {
    "name", "unique_id", "state_topic", "value_template", "unit_of_measurement", "icon",
    "device", "availability_topic", "payload_available", "payload_not_available"}

  /** The ten keys every sensor's discovery payload carries. */
  function BasePayload(s: Sensor): (p: map<string, Field>)
    ensures p.Keys == BaseKeys
    ensures p["name"] == FText(s.name) && p["unit_of_measurement"] == FText(s.unit) && p["icon"] == FText(s.icon)
    ensures p["unique_id"] == FText("boilerjuice_" + s.objectId)
    ensures p["state_topic"] == FText(StateTopic)
    ensures p["value_template"] == FText("{{ value_json." + s.valueKey + " }}")
    ensures p["availability_topic"] == FText(AvailabilityTopic)
    ensures p["payload_available"] == FText(Online) && p["payload_not_available"] == FText(Offline)
    ensures p["device"] == FDevice(DeviceInfo)
  {
    map[
      "name" := FText(s.name),
      "unique_id" := FText("boilerjuice_" + s.objectId),
      "state_topic" := FText(StateTopic),
      "value_template" := FText("{{ value_json." + s.valueKey + " }}"),
      "unit_of_measurement" := FText(s.unit),
      "icon" := FText(s.icon),
      "device" := FDevice(DeviceInfo),
      "availability_topic" := FText(AvailabilityTopic),
      "payload_available" := FText(Online),
      "payload_not_available" := FText(Offline)]
  }

  lemma OptionalKeysNotBase()
    ensures "device_class" !in BaseKeys && "state_class" !in BaseKeys && "device_class" != "state_class"
  {
  }

  /** The discovery payload of one sensor. */
  function DiscoveryPayload(s: Sensor): (p: map<string, Field>)
    ensures "unique_id" in p && p["unique_id"] == FText("boilerjuice_" + s.objectId)
    ensures "state_topic" in p && p["state_topic"] == FText(StateTopic)
    ensures "value_template" in p && p["value_template"] == FText("{{ value_json." + s.valueKey + " }}")
    ensures "availability_topic" in p && p["availability_topic"] == FText(AvailabilityTopic)
    ensures "payload_available" in p && "payload_not_available" in p && p["payload_available"] == FText(Online) && p["payload_not_available"] == FText(Offline)
    ensures "device" in p && p["device"] == FDevice(DeviceInfo)
    ensures "device_class" in p <==> Defined(s.deviceClass)
    ensures "state_class" in p <==> Defined(s.stateClass)
    ensures Defined(s.deviceClass) ==> p["device_class"] == FText(s.deviceClass.value)
    ensures Defined(s.stateClass) ==> p["state_class"] == FText(s.stateClass.value)
    ensures "name" in p && p["name"] == FText(s.name)
    ensures "unit_of_measurement" in p && p["unit_of_measurement"] == FText(s.unit)
    ensures "icon" in p && p["icon"] == FText(s.icon)
    ensures p.Keys == BaseKeys + (if Defined(s.deviceClass) then {"device_class"} else {})
                               + (if Defined(s.stateClass) then {"state_class"} else {})
  {
    var base := BasePayload(s);
    OptionalKeysNotBase();
    var withDevice := if Defined(s.deviceClass) then base["device_class" := FText(s.deviceClass.value)] else base;
    if Defined(s.stateClass) then withDevice["state_class" := FText(s.stateClass.value)] else withDevice
  }

  /** One retained discovery message per sensor in table order, then `online`. */
  function DiscoveryPlan(): (plan: seq<Message>)
    ensures |plan| == |Sensors| + 1
    ensures forall i | 0 <= i < |Sensors| ::
              plan[i] == Retained(DiscoveryTopic(Sensors[i]), Discovery(DiscoveryPayload(Sensors[i])))
    ensures plan[|Sensors|] == Retained(AvailabilityTopic, Plain(Online))
  {
    seq(|Sensors|, i requires 0 <= i < |Sensors| => Retained(DiscoveryTopic(Sensors[i]), Discovery(DiscoveryPayload(Sensors[i]))))
      + [Retained(AvailabilityTopic, Plain(Online))]
  }

  /** Every message of a plan is retained at QoS 1. */
  predicate AllRetained(messages: seq<Message>) {
    forall i | 0 <= i < |messages| :: messages[i].retain && messages[i].qos == QoS
  }

  /** `publish_discovery`: returns false without publishing when no client is available. */
  function PublishDiscovery(c: Config, broker: Broker): (r: Publication)
    ensures r.connection == Some(Connect(c, broker))
    ensures !Connect(c, broker).Connected? ==> r.messages == []
    ensures Connect(c, broker).PortInvalid? <==> r.result == Raises
    ensures r.result == Bool(true) <==>
              Connect(c, broker).Connected? && r.messages == DiscoveryPlan() && !broker.disconnectRaises
    ensures |r.messages| <= |DiscoveryPlan()| && r.messages == DiscoveryPlan()[..|r.messages|] && AllRetained(r.messages)
    ensures Connect(c, broker).Connected? ==> r.messages == Send(DiscoveryPlan(), broker).0
    ensures Connect(c, broker).Unavailable? || Connect(c, broker).Refused? ==> r.result == Bool(false)
  {
    var connection := Connect(c, broker);
    match connection
    case Connected(_) =>
      var (sent, ok) := Send(DiscoveryPlan(), broker);
      Publication(sent, Some(connection), Bool(ok && !broker.disconnectRaises))
    case PortInvalid => Publication([], Some(connection), Raises)
    case _ => Publication([], Some(connection), Bool(false))
  }

  /** The state message followed by `online`. */
  function StatePlan(data: TankReading.Dict): seq<Message> {
    [Retained(StateTopic, StateData(data)), Retained(AvailabilityTopic, Plain(Online))]
  }

  /** `publish_tank_data`: nothing at all, not even a connection, unless MQTT is enabled. */
  function PublishTankData(c: Config, data: TankReading.Dict, broker: Broker): (r: Publication)
    ensures !Enabled(c, "mqtt_enabled") ==> r == Publication([], None, Nothing)
    ensures Enabled(c, "mqtt_enabled") ==> r.connection == Some(Connect(c, broker))
    ensures Enabled(c, "mqtt_enabled") && (Connect(c, broker).Unavailable? || Connect(c, broker).Refused?) ==>
              r == Publication([], r.connection, Bool(false))
    ensures Enabled(c, "mqtt_enabled") && Connect(c, broker).PortInvalid? ==> r.messages == [] && r.result == Raises
    ensures r.result == Raises ==> Enabled(c, "mqtt_enabled") && Connect(c, broker).PortInvalid?
    ensures |r.messages| <= 2 && r.messages == StatePlan(data)[..|r.messages|] && AllRetained(r.messages)
    ensures r.result == Bool(true) <==>
              Enabled(c, "mqtt_enabled") && Connect(c, broker).Connected? && r.messages == StatePlan(data) && !broker.disconnectRaises
    ensures Enabled(c, "mqtt_enabled") && Connect(c, broker).Connected? ==> r.messages == Send(StatePlan(data), broker).0
  {
    if !Enabled(c, "mqtt_enabled") then Publication([], None, Nothing)
    else
      var connection := Connect(c, broker);
      match connection
      case Connected(_) =>
        var (sent, ok) := Send(StatePlan(data), broker);
        Publication(sent, Some(connection), Bool(ok && !broker.disconnectRaises))
      case PortInvalid => Publication([], Some(connection), Raises)
      case _ => Publication([], Some(connection), Bool(false))
  }

  /** `publish_offline`: the single retained `offline` message; publish errors are swallowed. */
  function PublishOffline(c: Config, broker: Broker): (r: Publication)
    ensures r.messages == [] || r.messages == [Retained(AvailabilityTopic, Plain(Offline))]
    ensures r.messages != [] <==> Connect(c, broker).Connected? && broker.failsAfter != Some(0)
    ensures r.result == (if Connect(c, broker).PortInvalid? then Raises else Nothing)
  {
    var connection := Connect(c, broker);
    match connection
    case Connected(_) =>
      var (sent, _) := Send([Retained(AvailabilityTopic, Plain(Offline))], broker);
      Publication(sent, Some(connection), Nothing)
    case PortInvalid => Publication([], Some(connection), Raises)
    case _ => Publication([], Some(connection), Nothing)
  }

  datatype TestReply = TestPassed(message: string) | TestFailed(error: string) | TestRaised

  /** `test_mqtt_connection`: a client that connects but fails to disconnect counts as
      no connection. */
  function TestConnection(c: Config, broker: Broker): (r: TestReply)
    ensures r.TestPassed? <==> Connect(c, broker).Connected? && !broker.disconnectRaises
    ensures r.TestPassed? ==> r.message == "MQTT connection successful"
    ensures !broker.installed ==> r == TestFailed("paho-mqtt not installed")
    ensures r.TestRaised? <==> Connect(c, broker).PortInvalid?
    ensures Connect(c, broker).Refused? || (Connect(c, broker).Connected? && broker.disconnectRaises) ==>
              r == TestFailed("Could not connect to MQTT broker")
  {
    if !broker.installed then TestFailed("paho-mqtt not installed")
    else
      match Connect(c, broker)
      case Connected(_) =>
        if broker.disconnectRaises then TestFailed("Could not connect to MQTT broker")
        else TestPassed("MQTT connection successful")
      case PortInvalid => TestRaised
      case _ => TestFailed("Could not connect to MQTT broker")
  }

  // ── Properties of the plans ───────────────────────────────

  /** With a working broker, discovery sends exactly one message per sensor in table order,
      each to its own config topic, then `online` on the availability topic. */
  lemma DiscoverySequence(c: Config, broker: Broker)
    requires Connect(c, broker).Connected? && broker.failsAfter.None? && !broker.disconnectRaises
    ensures var r := PublishDiscovery(c, broker);
            && r.result == Bool(true)
            && |r.messages| == |Sensors| + 1
            && (forall i | 0 <= i < |Sensors| ::
                  r.messages[i].topic == "homeassistant/sensor/boilerjuice/" + Sensors[i].objectId + "/config")
            && r.messages[|Sensors|] == Message(AvailabilityTopic, Plain("online"), true, 1)
  {
    var r := PublishDiscovery(c, broker);
    var plan := DiscoveryPlan();
    assert r.messages == plan by {
      assert Send(plan, broker) == (plan, true);
    }
    forall i | 0 <= i < |Sensors|
      ensures plan[i].topic == "homeassistant/sensor/boilerjuice/" + Sensors[i].objectId + "/config"
    {
      assert plan[i].topic == DiscoveryTopic(Sensors[i]);
      TopicSpelled(Sensors[i]);
    }
  }

  /** With a working broker, tank data goes to the state topic and then `online` to the
      availability topic, both retained, and true is returned. */
  lemma TankDataSequence(c: Config, data: TankReading.Dict, broker: Broker)
    requires Enabled(c, "mqtt_enabled") && Connect(c, broker).Connected?
    requires broker.failsAfter.None? && !broker.disconnectRaises
    ensures var r := PublishTankData(c, data, broker);
            && r.result == Bool(true)
            && r.messages == [Message("boilerjuice/tank/state", StateData(data), true, 1),
                              Message("boilerjuice/tank/availability", Plain("online"), true, 1)]
  {
    assert Send(StatePlan(data), broker) == (StatePlan(data), true);
  }

  /** A publish that raises after `k` messages leaves only those `k` out, and false is returned. */
  lemma TankDataCutShort(c: Config, data: TankReading.Dict, broker: Broker, k: nat)
    requires Enabled(c, "mqtt_enabled") && Connect(c, broker).Connected?
    requires broker.failsAfter == Some(k) && k < 2
    ensures var r := PublishTankData(c, data, broker);
            r.result == Bool(false) && r.messages == StatePlan(data)[..k]
  {
    assert Send(StatePlan(data), broker) == (StatePlan(data)[..k], false);
  }

  lemma TopicSpelled(s: Sensor)
    ensures DiscoveryTopic(s) == "homeassistant/sensor/boilerjuice/" + s.objectId + "/config"
  {
    assert DiscoveryPrefix + "/sensor/boilerjuice/" == "homeassistant/sensor/boilerjuice/";
  }

  /** Injectivity of a topic built around a middle part. */
  lemma {:induction false} FramedInjective(prefix: string, x: string, y: string, suffix: string)
    requires prefix + x + suffix == prefix + y + suffix
    ensures x == y
  {
    var w := prefix + x + suffix;
    assert |x| == |y|;
    assert x == w[|prefix|..|prefix| + |x|];
    assert y == (prefix + y + suffix)[|prefix|..|prefix| + |y|];
  }

  /** The discovery topic names the sensor's object id and nothing else: sensors with
      different object ids never overwrite each other's retained discovery message. */
  lemma DiscoveryTopicInjective(s: Sensor, t: Sensor)
    ensures DiscoveryTopic(s) == DiscoveryTopic(t) <==> s.objectId == t.objectId
  {
    if DiscoveryTopic(s) == DiscoveryTopic(t) {
      FramedInjective(DiscoveryPrefix + "/sensor/boilerjuice/", s.objectId, t.objectId, "/config");
    }
  }

  /** No two rows of the sensor table share a discovery topic. */
  lemma DiscoveryTopicsDistinct(i: nat, j: nat)
    requires i < |Sensors| && j < |Sensors| && i != j
    ensures DiscoveryTopic(Sensors[i]) != DiscoveryTopic(Sensors[j])
  {
    DiscoveryTopicInjective(Sensors[i], Sensors[j]);
  }

  /** The percentage sensor carries no device class and the capacity sensor no state class;
      the litres sensor carries both. */
  lemma SensorClasses()
    ensures "device_class" !in DiscoveryPayload(Sensors[1])
    ensures "state_class" !in DiscoveryPayload(Sensors[2])
    ensures "device_class" in DiscoveryPayload(Sensors[0]) && "state_class" in DiscoveryPayload(Sensors[0])
  {
  }
}

=== FILE: optional.dfy ===
/** The optional value used wherever the repository returns `None` or leaves a key unset. */
module Optional {

  datatype Option<+T> = None | Some(value: T) {

    /** Lets `:-` stop at the first missing value. */
    predicate IsFailure() {
      None?
    }

    function PropagateFailure<U>(): Option<U>
      requires None?
    {
      None
    }

    function Extract(): T
      requires Some?
    {
      value
    }

    /** Python's `d.get(key, default)` once the lookup has been turned into an option. */
    function GetOr(default: T): T {
      if Some? then value else default
    }
  }
}

=== FILE: page_classifier.dfy ===
/** Classification of a rendered page into the four kinds the scraper distinguishes. */
module PageClassifier {
  import opened Text

  datatype PageType = Captcha | Login | Tank | Unknown

  /** The tag the scraper reports for each kind. */
  function Name(t: PageType): string {
    match t
    case Captcha => "captcha"
    case Login => "login"
    case Tank => "tank"
    case Unknown => "unknown"
  }

  const CaptchaIndicators: seq<string> := ["human verification", "captcha", "awswaf", "confirm you are human"]
  const LoginIndicators: seq<string> := ["user[email]", "user[password]", "log in", "sign in"]
  const TankIndicators: seq<string> := ["tank", "litres", "oil", "capacity", "usable"]

  /** Python's `any(w in text for w in words)`. */
  predicate MentionsAny(text: string, words: seq<string>) {
    exists k | 0 <= k < |words| :: Contains(text, words[k])
  }

  /** Some marker of `words` occurs, in the reference sense, in the lower-cased page. */
  ghost predicate Marked(html: string, words: seq<string>) {
    exists k, i | 0 <= k < |words| :: OccursAt(Lower(html), words[k], i)
  }

  lemma MentionsAnyIff(text: string, words: seq<string>)
    ensures MentionsAny(text, words) <==> exists k, i | 0 <= k < |words| :: OccursAt(text, words[k], i)
  {
    forall k | 0 <= k < |words| {
      ContainsIff(text, words[k]);
    }
  }

  /** The page type of `html`: markers are searched in the lower-cased page. Against the
      reference notion of substring, captcha markers outrank login markers, which outrank
      tank markers, and a page with none is unknown. */
  function Classify(html: string): (r: PageType)
    ensures r == Captcha <==> Marked(html, CaptchaIndicators)
    ensures r == Login <==> !Marked(html, CaptchaIndicators) && Marked(html, LoginIndicators)
    ensures r == Tank <==>
              !Marked(html, CaptchaIndicators) && !Marked(html, LoginIndicators) && Marked(html, TankIndicators)
    ensures r == Unknown <==>
              !Marked(html, CaptchaIndicators) && !Marked(html, LoginIndicators) && !Marked(html, TankIndicators)
  {
    var text := Lower(html);
    MentionsAnyIff(text, CaptchaIndicators);
    MentionsAnyIff(text, LoginIndicators);
    MentionsAnyIff(text, TankIndicators);
    if MentionsAny(text, CaptchaIndicators) then Captcha
    else if MentionsAny(text, LoginIndicators) then Login
    else if MentionsAny(text, TankIndicators) then Tank
    else Unknown
  }

  /** Upper- or lower-casing the page never changes its classification. */
  lemma ClassifyCaseInsensitive(html: string)
    ensures Classify(Lower(html)) == Classify(html)
  {
    LowerIdempotent(html);
  }

  /** A captcha marker wins whatever login or tank markers the page also carries,
      and surrounding the page with more content keeps it a captcha page. */
  lemma CaptchaSticky(before: string, html: string, after: string)
    requires Classify(html) == Captcha
    ensures Classify(before + html + after) == Captcha
  {
    var k :| 0 <= k < |CaptchaIndicators| && Contains(Lower(html), CaptchaIndicators[k]);
    LowerConcat(before + html, after);
    LowerConcat(before, html);
    ContainsWithin(Lower(before), Lower(html), Lower(after), CaptchaIndicators[k]);
  }

  /** A page carrying a login marker and no captcha marker is a login page,
      whatever tank words it also contains. */
  lemma LoginOutranksTank(html: string, k: nat, i: nat)
    requires k < |LoginIndicators| && OccursAt(Lower(html), LoginIndicators[k], i)
    requires !Marked(html, CaptchaIndicators)
    ensures Classify(html) == Login
  {
  }

  /** A challenge page that also shows the login form's field name is a captcha page. */
  lemma ChallengeWithLoginField(before: string, after: string)
    ensures Classify(before + "captcha" + after) == Captcha
  {
    var marker := "captcha";
    LowerUnchanged(marker);
    assert StartsWith(Lower(marker), CaptchaIndicators[1]);
    CaptchaSticky(before, marker, after);
  }

  /** A challenge page that also shows the login field classifies as captcha. */
  lemma ChallengeScenario()
    ensures Classify("You are a human - " + "captcha" + " challenge, user[email]") == Captcha
  {
    ChallengeWithLoginField("You are a human - ", " challenge, user[email]");
  }
}

=== FILE: py_values.dfy ===
/** Configuration values as decoded from JSON, with Python's truthiness. */
module PyValues {
  import opened Optional

  datatype JsonValue = JNull | JBool(b: bool) | JInt(i: int) | JFloat(r: real) | JStr(s: string)

  type Config = map<string, JsonValue>

  /** `bool(v)`. */
  predicate Truthy(v: JsonValue) {
    match v
    case JNull => false
    case JBool(b) => b
    case JInt(i) => i != 0
    case JFloat(r) => r != 0.0
    case JStr(s) => s != ""
  }

  /** `config.get(key, default)`. */
  function Get(c: Config, key: string, default: JsonValue): (r: JsonValue)
    ensures key in c ==> r == c[key]
    ensures key !in c ==> r == default
  {
    if key in c then c[key] else default
  }

  /** `bool(config.get(key))`: present and truthy. */
  predicate Enabled(c: Config, key: string) {
    key in c && Truthy(c[key])
  }

  /** The value as a number in a comparison or a product; `None` where Python raises `TypeError`. */
  function AsNumber(v: JsonValue): Option<real> {
    match v
    case JBool(b) => Some(if b then 1.0 else 0.0)
    case JInt(i) => Some(i as real)
    case JFloat(r) => Some(r)
    case _ => None
  }

  /** Stored text, where the request layer expects a string; a value of any other type reads as empty. */
  function StoredText(c: Config, key: string): string {
    if key in c && c[key].JStr? then c[key].s else ""
  }
}

=== FILE: server.dfy ===
/** The decisions the HTTP layer makes around the scraper: the masked and merged
    configuration, credential resolution, one pass of the refresh loop, the manual
    refresh and the media type of a static file. */
module Server {
  import opened Optional
  import opened Text
  import opened PyValues
  import Session

  // ── GET /api/config ────────────────────────────────────────

  /** Keys the masked view removes or sets itself. */
  const Reserved: set<string> := {"password", "mqtt_password", "has_password", "has_mqtt_password", "success"}

  /** `get_config`: the stored configuration with both secrets replaced by presence flags. */
  function MaskConfig(c: Config): (m: Config)
    ensures "password" !in m && "mqtt_password" !in m
    ensures "has_password" in m && m["has_password"] == JBool(Enabled(c, "password"))
    ensures "has_mqtt_password" in m <==> Enabled(c, "mqtt_password") || "has_mqtt_password" in c
    ensures Enabled(c, "mqtt_password") ==> m["has_mqtt_password"] == JBool(true)
    ensures !Enabled(c, "mqtt_password") && "has_mqtt_password" in c ==> m["has_mqtt_password"] == c["has_mqtt_password"]
    ensures "success" in m && m["success"] == JBool(true)
    ensures forall k | k in c && k !in Reserved :: k in m && m[k] == c[k]
    ensures forall k | k in m && k !in Reserved :: k in c
  {
    var flagged := c["has_password" := JBool(Enabled(c, "password"))] - {"password", "mqtt_password"};
    var withMqtt := if Enabled(c, "mqtt_password") then flagged["has_mqtt_password" := JBool(true)] else flagged;
    withMqtt["success" := JBool(true)]
  }

  // ── POST /api/config ───────────────────────────────────────

  /** The keys a request body may set directly. */
  const Editable: set<string> := {"email", "tank_id", "refresh_interval", "mqtt_enabled", "mqtt_host", "mqtt_port", "mqtt_user"}

  /** The keys set only by a non-empty value. */
  const Secrets: set<string> := {"password", "mqtt_password"}

  /** A secret in the body replaces the stored one only when it is truthy. */
  function MergeSecret(c: Config, body: Config, key: string): (r: Config)
    ensures Enabled(body, key) ==> key in r && r[key] == body[key]
    ensures !Enabled(body, key) ==> r == c
    ensures forall k | k != key :: (k in r <==> k in c) && (k in c ==> r[k] == c[k])
  {
    if Enabled(body, key) then c[key := body[key]] else c
  }

  /** `set_config`: the stored configuration after a request body; `None` stands for a body
      that is not a JSON object, which is answered with an error and saves nothing. */
  function SetConfig(c: Config, body: Option<Config>): (r: (Config, bool))
    ensures body.None? ==> r == (c, false)
    ensures body.Some? ==> r.1
    ensures body.Some? ==> forall k | k in Editable && k in body.value :: k in r.0 && r.0[k] == body.value[k]
    ensures body.Some? ==> forall k | k in Editable && k !in body.value :: (k in r.0 <==> k in c) && (k in c ==> r.0[k] == c[k])
    ensures forall k | k !in Editable && k !in Secrets :: (k in r.0 <==> k in c) && (k in c ==> r.0[k] == c[k])
    ensures body.Some? ==> forall k | k in Secrets && Enabled(body.value, k) :: k in r.0 && r.0[k] == body.value[k]
    ensures body.Some? ==> forall k | k in Secrets && !Enabled(body.value, k) :: (k in r.0 <==> k in c) && (k in c ==> r.0[k] == c[k])
  {
    match body
    case None => (c, false)
    case Some(b) =>
      SecretsNotEditable();
      var withPassword := MergeSecret(CopyEditable(c, b), b, "password");
      (MergeSecret(withPassword, b, "mqtt_password"), true)
  }

  /** The plain keys of a request body overwrite the stored ones; nothing else changes. */
  function CopyEditable(c: Config, body: Config): (r: Config)
    ensures forall k | k in Editable && k in body :: k in r && r[k] == body[k]
    ensures forall k | !(k in Editable && k in body) :: (k in r <==> k in c) && (k in c ==> r[k] == c[k])
  {
    map k | k in c.Keys + (body.Keys * Editable) :: if k in body && k in Editable then body[k] else c[k]
  }

  lemma SecretsNotEditable()
    ensures "password" !in Editable && "mqtt_password" !in Editable
  {
  }

  /** Posting the same body twice stores the same configuration as posting it once. */
  lemma SetConfigIdempotent(c: Config, body: Config)
    ensures SetConfig(SetConfig(c, Some(body)).0, Some(body)).0 == SetConfig(c, Some(body)).0
  {
    var once := SetConfig(c, Some(body)).0;
    var twice := SetConfig(once, Some(body)).0;
    forall k
      ensures (k in twice <==> k in once) && (k in once ==> twice[k] == once[k])
    {
      SetConfigAgain(c, body, k);
    }
    assert twice.Keys == once.Keys;
  }

  /** A second post of the same body leaves each key as the first post stored it. */
  lemma SetConfigAgain(c: Config, body: Config, k: string)
    ensures var once := SetConfig(c, Some(body)).0;
            var twice := SetConfig(once, Some(body)).0;
            (k in twice <==> k in once) && (k in once ==> twice[k] == once[k])
  {
    var once := SetConfig(c, Some(body)).0;
    var twice := SetConfig(once, Some(body)).0;
    if k in Editable && k in body {
      assert twice[k] == body[k] == once[k];
    } else if k in Secrets && Enabled(body, k) {
      assert twice[k] == body[k] == once[k];
    }
  }

  /** Saving a form with an empty password field never clears the stored password,
      so the masked view still reports it. */
  lemma EmptyPasswordKeepsSecret(c: Config, body: Config)
    requires !Enabled(body, "password")
    ensures MaskConfig(SetConfig(c, Some(body)).0)["has_password"] == MaskConfig(c)["has_password"]
  {
    var stored := SetConfig(c, Some(body)).0;
    assert ("password" in stored <==> "password" in c) && ("password" in c ==> stored["password"] == c["password"]);
  }

  // ── POST /api/auth/fill-login ──────────────────────────────

  const SavedSentinel: string := "__saved__"
  const NoCredentials: string := "No credentials available. Please enter them in Settings first."

  datatype Credentials = Credentials(email: string, password: string)

  /** The credentials handed to the scraper: the sentinel password stands for the stored one,
      an empty field is filled from the configuration, and nothing is handed over unless
      both end up non-empty. */
  function ResolveCredentials(email: string, password: string, c: Config): (r: Option<Credentials>)
    ensures var e := if email != "" then email else StoredText(c, "email");
            var p := if password != "" && password != SavedSentinel then password else StoredText(c, "password");
            r == (if e != "" && p != "" then Some(Credentials(e, p)) else None)
  {
    var unsealed := if password == SavedSentinel then StoredText(c, "password") else password;
    var (e, p) :=
      if email == "" || unsealed == "" then
        (if email != "" then email else StoredText(c, "email"),
         if unsealed != "" then unsealed else StoredText(c, "password"))
      else (email, unsealed);
    if e == "" || p == "" then None else Some(Credentials(e, p))
  }

  /** `auth_fill_login` in the server: with no usable credentials it answers with an error and
      never calls the scraper; the third component is what was handed to the scraper. */
  function FillLogin(s: Session.State, email: string, password: string, c: Config,
                     current: Option<Session.Page>, submission: Session.Outcome)
    : (r: (Session.State, Session.AuthReply, Option<Credentials>))
    ensures r.2 == ResolveCredentials(email, password, c)
    ensures r.2.None? ==> r.0 == s && r.1 == Session.AuthReply(false, Some(NoCredentials), None, None)
    ensures r.2.Some? ==> (r.0, r.1) == Session.AuthFillLogin(s, current, submission)
  {
    match ResolveCredentials(email, password, c)
    case None => (s, Session.AuthReply(false, Some(NoCredentials), None, None), None)
    case Some(credentials) =>
      var (next, reply) := Session.AuthFillLogin(s, current, submission);
      (next, reply, Some(credentials))
  }

  /** The sentinel never reaches the scraper while a different password is stored,
      and a request with both fields empty uses exactly the stored pair. */
  lemma SentinelResolved(email: string, c: Config)
    requires email != "" && StoredText(c, "password") != "" && StoredText(c, "password") != SavedSentinel
    ensures ResolveCredentials(email, SavedSentinel, c) == Some(Credentials(email, StoredText(c, "password")))
    ensures StoredText(c, "email") != "" ==>
              ResolveCredentials("", "", c) == Some(Credentials(StoredText(c, "email"), StoredText(c, "password")))
  {
  }

  // ── auto_refresh_loop ──────────────────────────────────────

  const DefaultInterval: JsonValue := JInt(60)
  const IdleSleep: real := 60.0
  const ErrorSleep: real := 300.0

  /** How the pass's awaited work ended: the fetch completed (and its sleep ran out), the
      fetch raised, or the loop's asyncio task was cancelled at one of the pass's awaits (the fetch or any
      of its sleeps).  For a pass that does not fetch, only `Cancelled` matters. */
  datatype FetchOutcome = Completed(success: bool) | Crashed | Cancelled

  /** One pass of the loop: whether it fetched, whether it handed the data to the publisher,
      and how long it then sleeps; or the loop ends. */
  datatype Step = Step(fetched: bool, published: bool, sleepSeconds: real) | Exit

  /** The interval in minutes as a number, or `None` when comparing it with 0 raises. */
  function Interval(c: Config): Option<real> {
    AsNumber(Get(c, "refresh_interval", DefaultInterval))
  }

  /** Whether the configuration lets a pass fetch at all. */
  predicate Armed(c: Config) {
    Interval(c).Some? && Interval(c).value > 0.0 && Truthy(Get(c, "tank_id", JStr("")))
  }

  /** One pass of `auto_refresh_loop` for the configuration it loaded and the outcome of its fetch. */
  function RefreshStep(c: Config, outcome: FetchOutcome): (r: Step)
    ensures r.Exit? <==> outcome == Cancelled
    ensures r.Step? ==> r.sleepSeconds > 0.0
    ensures r.Step? ==> (r.fetched <==> Armed(c))
    ensures r.Step? && r.published ==> r.fetched && outcome == Completed(true) && Enabled(c, "mqtt_enabled")
    ensures r.Step? && Armed(c) && outcome == Completed(true) && Enabled(c, "mqtt_enabled") ==> r.published
    ensures Interval(c).None? && outcome != Cancelled ==> r == Step(false, false, ErrorSleep)
    ensures Interval(c).Some? && !Armed(c) && outcome != Cancelled ==> r == Step(false, false, IdleSleep)
    ensures Armed(c) && outcome == Crashed ==> r.sleepSeconds == ErrorSleep
    ensures Armed(c) && outcome.Completed? ==> r.sleepSeconds == Interval(c).value * 60.0
  {
    if outcome == Cancelled then Exit
    else
      match Interval(c)
      case None => Step(false, false, ErrorSleep)
      case Some(minutes) =>
        if minutes <= 0.0 then Step(false, false, IdleSleep)
        else if !Truthy(Get(c, "tank_id", JStr(""))) then Step(false, false, IdleSleep)
        else
          match outcome
          case Crashed => Step(true, false, ErrorSleep)
          case Completed(success) => Step(true, success && Enabled(c, "mqtt_enabled"), minutes * 60.0)
  }

  /** With no interval configured and a tank id set, a completed fetch waits an hour. */
  lemma DefaultHourly(c: Config, success: bool)
    requires "refresh_interval" !in c && Truthy(Get(c, "tank_id", JStr("")))
    ensures RefreshStep(c, Completed(success)).sleepSeconds == 3600.0
  {
  }

  /** Successive passes of a loop whose pass function is `step`: the loop stops right after
      the first pass that exits. */
  function LoopTrace(step: (Config, FetchOutcome) -> Step, passes: seq<(Config, FetchOutcome)>): (trace: seq<Step>)
    ensures |trace| <= |passes|
    ensures forall i | 0 <= i < |trace| :: trace[i] == step(passes[i].0, passes[i].1)
    ensures forall i | 0 <= i < |trace| - 1 :: trace[i].Step?
    ensures |trace| < |passes| ==> trace != [] && trace[|trace| - 1].Exit?
    decreases |passes|
  {
    if passes == [] then []
    else
      var first := step(passes[0].0, passes[0].1);
      if first.Exit? then [first]
      else
        var later := passes[1..];
        var rest := LoopTrace(step, later);
        assert forall i | 0 <= i < |later| :: later[i] == passes[i + 1];
        var trace := [first] + rest;
        assert trace[0] == first;
        assert forall i | 0 <= i < |rest| :: trace[i + 1] == rest[i];
        trace
  }

  /** The loop over successive passes; each entry is the configuration a pass loaded and
      how it ended.  The loop stops only at a cancelled pass. */
  function Run(passes: seq<(Config, FetchOutcome)>): (trace: seq<Step>)
    ensures |trace| <= |passes|
    ensures forall i | 0 <= i < |trace| :: trace[i] == RefreshStep(passes[i].0, passes[i].1)
    ensures forall i | 0 <= i < |trace| - 1 :: trace[i].Step?
    ensures |trace| < |passes| ==> trace != [] && trace[|trace| - 1].Exit?
  {
    LoopTrace(RefreshStep, passes)
  }

  /** A pass whose fetch raised is followed by the next pass: only cancellation ends the loop. */
  lemma ErrorDoesNotStopLoop(passes: seq<(Config, FetchOutcome)>, i: nat)
    requires i + 1 < |passes|
    requires forall j | 0 <= j <= i :: passes[j].1 != Cancelled
    ensures |Run(passes)| > i + 1
    ensures Run(passes)[i + 1] == RefreshStep(passes[i + 1].0, passes[i + 1].1)
  {
  }

  /** Cancelling the loop's asyncio task ends it at that pass, whatever the pass was doing: fetching,
      idling without a tank id, or sleeping after an error. */
  lemma CancelEndsLoop(passes: seq<(Config, FetchOutcome)>, i: nat)
    requires i < |passes| && passes[i].1 == Cancelled
    requires forall j | 0 <= j < i :: passes[j].1 != Cancelled
    ensures |Run(passes)| == i + 1 && Run(passes)[i] == Exit
  {
  }

  // ── POST /api/refresh ──────────────────────────────────────

  const TankIdMissing: string := "Tank ID not configured. Go to Settings."

  datatype RefreshReply = NotConfigured(error: string) | Forwarded(reply: Session.FetchReply)

  /** `refresh_data`: without a tank id, an error and no fetch; otherwise the scraper's reply
      unchanged.  The flag says whether the data is handed to the publisher; a failure there
      is logged and does not change the reply. */
  function ManualRefresh(c: Config, fetch: JsonValue -> Session.FetchReply): (r: (RefreshReply, bool))
    ensures !Truthy(Get(c, "tank_id", JStr(""))) ==> r == (NotConfigured(TankIdMissing), false)
    ensures Truthy(Get(c, "tank_id", JStr(""))) ==> r.0 == Forwarded(fetch(c["tank_id"]))
    ensures r.1 <==> r.0.Forwarded? && r.0.reply.Fetched? && Enabled(c, "mqtt_enabled")
  {
    var tankId := Get(c, "tank_id", JStr(""));
    if !Truthy(tankId) then (NotConfigured(TankIdMissing), false)
    else
      var reply := fetch(tankId);
      (Forwarded(reply), reply.Fetched? && Enabled(c, "mqtt_enabled"))
  }

  /** A manual refresh hands the data to the publisher exactly when a loop pass with the same
      configuration and fetch result would. */
  lemma ManualPublishesLikeLoop(c: Config, fetch: JsonValue -> Session.FetchReply)
    requires Armed(c)
    ensures ManualRefresh(c, fetch).1 == RefreshStep(c, Completed(fetch(c["tank_id"]).Fetched?)).published
  {
  }

  /** Without a tank id neither a manual refresh nor a loop pass fetches. */
  lemma UnconfiguredNeverFetches(c: Config, fetch: JsonValue -> Session.FetchReply, outcome: FetchOutcome)
    requires !Truthy(Get(c, "tank_id", JStr("")))
    ensures ManualRefresh(c, fetch).0.NotConfigured?
    ensures RefreshStep(c, outcome).Step? ==> !RefreshStep(c, outcome).fetched
  {
  }

  // ── Static files ───────────────────────────────────────────

  const MimeTypes: map<string, string> := map[
    ".html" := "text/html",
    ".css" := "text/css",
    ".js" := "application/javascript",
    ".json" := "application/json",
    ".png" := "image/png",
    ".jpg" := "image/jpeg",
    ".svg" := "image/svg+xml",
    ".ico" := "image/x-icon"]

  const OctetStream: string := "application/octet-stream"

  /** `s.rfind(c)`: the last position holding `c`, or -1. */
  function RFind(s: string, c: char): (r: int)
    ensures -1 <= r < |s|
    ensures r >= 0 ==> s[r] == c
    ensures forall j | r < j < |s| :: s[j] != c
  {
    if s == [] then -1
    else if s[|s| - 1] == c then |s| - 1
    else RFind(s[..|s| - 1], c)
  }

  /** The last path component: the text after the last `/`. */
  function FileName(path: string): (r: string)
    ensures |r| <= |path| && r == path[|path| - |r|..]
    ensures forall j | 0 <= j < |r| :: r[j] != '/'
    ensures |r| < |path| ==> path[|path| - |r| - 1] == '/'
  {
    path[RFind(path, '/') + 1..]
  }

  /** Position `i` holds the last dot of `name`, and that dot neither starts nor ends it. */
  ghost predicate SuffixDot(name: string, i: int) {
    0 < i < |name| - 1 && name[i] == '.' && forall j | i < j < |name| :: name[j] != '.'
  }

  /** `PurePath.suffix`: from the last dot of the file name, unless the name starts or ends with it. */
  function Suffix(path: string): (r: string)
    ensures r == [] || (|r| >= 2 && r[0] == '.')
    ensures r != [] ==> |r| < |FileName(path)| && r == FileName(path)[|FileName(path)| - |r|..]
    ensures r != [] ==> forall j | 1 <= j < |r| :: r[j] != '.'
    ensures r == [] <==> !exists i | 0 <= i < |FileName(path)| :: SuffixDot(FileName(path), i)
  {
    NameSuffix(FileName(path))
  }

  /** The suffix of a file name. */
  function NameSuffix(name: string): (r: string)
    ensures r == [] || (|r| >= 2 && r[0] == '.')
    ensures r != [] ==> |r| < |name| && r == name[|name| - |r|..]
    ensures r != [] ==> forall j | 1 <= j < |r| :: r[j] != '.'
    ensures r == [] <==> !exists i | 0 <= i < |name| :: SuffixDot(name, i)
  {
    var i := RFind(name, '.');
    if 0 < i < |name| - 1 then
      assert SuffixDot(name, i);
      name[i..]
    else
      ""
  }

  /** The media type served for a file, looked up by its lower-cased suffix. */
  function MediaType(path: string): (r: string)
    ensures r in MimeTypes.Values || r == OctetStream
    ensures Lower(Suffix(path)) in MimeTypes ==> r == MimeTypes[Lower(Suffix(path))]
    ensures Lower(Suffix(path)) !in MimeTypes ==> r == OctetStream
  {
    var suffix := Lower(Suffix(path));
    if suffix in MimeTypes then MimeTypes[suffix] else OctetStream
  }

  datatype StaticReply = File(path: string, mediaType: string) | NotFound(detail: string)

  /** `serve_static`: a regular file is served with its media type, anything else is a 404. */
  function ServeStatic(path: string, isFile: bool): (r: StaticReply)
    ensures r.File? <==> isFile
    ensures r.File? ==> r.path == path && r.mediaType == MediaType(path)
    ensures r.NotFound? ==> r.detail == "File not found: " + path
  {
    if isFile then File(path, MediaType(path)) else NotFound("File not found: " + path)
  }

  lemma {:induction false} RFindLower(s: string, c: char)
    requires !('A' <= c <= 'Z') && !('a' <= c <= 'z')
    ensures RFind(Lower(s), c) == RFind(s, c)
  {
    if s != [] {
      var init := s[..|s| - 1];
      assert Lower(s)[|s| - 1] == c <==> s[|s| - 1] == c;
      LowerSlice(s, 0, |s| - 1);
      assert Lower(s)[..|s| - 1] == Lower(init);
      RFindLower(init, c);
    }
  }

  lemma FileNameLower(path: string)
    ensures FileName(Lower(path)) == Lower(FileName(path))
  {
    RFindLower(path, '/');
    LowerSlice(path, RFind(path, '/') + 1, |path|);
  }

  lemma NameSuffixLower(name: string)
    ensures NameSuffix(Lower(name)) == Lower(NameSuffix(name))
  {
    var i := RFind(name, '.');
    RFindLower(name, '.');
    if 0 < i < |name| - 1 {
      LowerSlice(name, i, |name|);
    }
  }

  /** Lower-casing a path lower-cases its suffix and nothing more. */
  lemma SuffixLower(path: string)
    ensures Suffix(Lower(path)) == Lower(Suffix(path))
  {
    FileNameLower(path);
    NameSuffixLower(FileName(path));
  }

  /** The lookup ignores case. */
  lemma MediaTypeCaseInsensitive(path: string)
    ensures MediaType(Lower(path)) == MediaType(path)
  {
    SuffixLower(path);
    LowerIdempotent(Suffix(path));
  }

  /** A bare file name whose last dot sits at `i` has the suffix from that dot on. */
  lemma DottedName(name: string, i: int)
    requires forall j | 0 <= j < |name| :: name[j] != '/'
    requires SuffixDot(name, i)
    ensures Suffix(name) == name[i..]
  {
    assert RFind(name, '/') == -1;
    assert FileName(name) == name;
    assert RFind(name, '.') == i;
  }

  /** `logo.PNG` is served as `image/png`. */
  lemma UpperCaseSuffix()
    ensures MediaType("logo.PNG") == "image/png"
  {
    LogoSuffix();
    LowerPng();
    PngType();
  }

  lemma PngType()
    ensures ".png" in MimeTypes && MimeTypes[".png"] == "image/png"
  {
  }

  lemma LogoSuffix()
    ensures Suffix("logo.PNG") == ".PNG"
  {
    LogoName();
    DottedName("logo.PNG", 4);
  }

  lemma LowerPng()
    ensures Lower(".PNG") == ".png"
  {
  }

  /** `logo.PNG` is a bare file name whose last dot is its fifth character. */
  lemma LogoName()
    ensures forall j | 0 <= j < |"logo.PNG"| :: "logo.PNG"[j] != '/'
    ensures SuffixDot("logo.PNG", 4) && "logo.PNG"[4..] == ".PNG"
  {
    var name := "logo.PNG";
    assert name[0] == 'l' && name[1] == 'o' && name[2] == 'g' && name[3] == 'o';
    assert name[4] == '.' && name[5] == 'P' && name[6] == 'N' && name[7] == 'G';
  }

  lemma RFindAbsent(s: string, c: char)
    requires forall j | 0 <= j < |s| :: s[j] != c
    ensures RFind(s, c) == -1
  {
  }
}

=== FILE: session.dfy ===
/** The scraper's own state and the transitions of the authentication flow and of a fetch.
    Each browser step enters as its outcome: the page it settled on, or the message of
    the exception it raised. */
module Session {
  import opened Optional
  import opened Text
  import opened PageClassifier
  import opened TankReading
  import opened Extraction
  import History

  const LoginUrl: string := "https://www.boilerjuice.com/uk/users/login"
  const TankUrlPrefix: string := "https://www.boilerjuice.com/uk/users/tanks/"
  const DashboardUrl: string := "https://www.boilerjuice.com/uk/users/dashboard"
  const MyAccountUrl: string := "https://www.boilerjuice.com/my-account"

  /** How much of the last page's text a failed fetch reports. */
  const PreviewLength: nat := 500

  datatype State = State(
    authInProgress: bool,
    lastError: Option<string>,
    lastTankData: Option<TankData>,
    history: seq<Dict>)

  /** A freshly constructed scraper over the given history file contents. */
  function Initial(history: seq<Dict>): (s: State)
    ensures !s.authInProgress && s.lastError.None? && s.lastTankData.None?
    ensures s.history == history
  {
    State(false, None, None, history)
  }

  datatype Page = Page(url: string, html: string)

  datatype Outcome = Settled(page: Page) | Raised(message: string)

  /** The reply of an auth step; `pageType` is the classification reported in its page info. */
  datatype AuthReply = AuthReply(
    success: bool,
    error: Option<string>,
    pageType: Option<PageType>,
    loggedIn: Option<bool>)

  const NoActivePage: string := "No active page"
  const CaptchaDetected: string := "CAPTCHA detected. Please solve it first using the remote browser."

  /** `start_auth`: raise the flag and clear the last error before navigating to the login page;
      a failed navigation records its message as the last error. */
  function StartAuth(s: State, navigation: Outcome): (r: (State, AuthReply))
    ensures r.0.authInProgress
    ensures r.0.lastTankData == s.lastTankData && r.0.history == s.history
    ensures r.1.success <==> navigation.Settled?
    ensures r.1.success ==> r.0.lastError.None? && r.1.pageType == Some(Classify(navigation.page.html))
    ensures !r.1.success ==> r.0.lastError == Some(navigation.message) && r.1.error == r.0.lastError
  {
    var started := s.(authInProgress := true, lastError := None);
    match navigation
    case Settled(page) => (started, AuthReply(true, None, Some(Classify(page.html)), None))
    case Raised(message) =>
      (started.(lastError := Some(message)), AuthReply(false, Some(message), None, None))
  }

  /** `auth_click`, `auth_type` and `auth_press_key`: forward one input to the open page and
      report where it ended up.  None of them touches the scraper state. */
  function RelayInput(current: Option<Page>, after: Outcome): (r: AuthReply)
    ensures current.None? ==> r == AuthReply(false, Some(NoActivePage), None, None)
    ensures r.success <==> current.Some? && after.Settled?
    ensures r.success ==> r.pageType == Some(Classify(after.page.html)) && r.error.None?
    ensures current.Some? && after.Raised? ==> r == AuthReply(false, Some(after.message), None, None)
  {
    if current.None? then AuthReply(false, Some(NoActivePage), None, None)
    else match after
      case Settled(page) => AuthReply(true, None, Some(Classify(page.html)), None)
      case Raised(message) => AuthReply(false, Some(message), None, None)
  }

  /** Whether a page reached after submitting the login form counts as logged in. */
  predicate LoggedIn(html: string) {
    Classify(html) != Captcha && Classify(html) != Login
  }

  /** `auth_fill_login`: refuses unless the open page is a login page; after a submission the
      flag stays raised exactly when the new page is again a captcha or login page. */
  function AuthFillLogin(s: State, current: Option<Page>, submission: Outcome): (r: (State, AuthReply))
    ensures !r.1.success ==> r.0 == s
    ensures r.1.success <==> current.Some? && Classify(current.value.html) == Login && submission.Settled?
    ensures current.Some? && Classify(current.value.html) == Captcha ==>
              r.1 == AuthReply(false, Some(CaptchaDetected), Some(Captcha), None)
    ensures current.Some? && Classify(current.value.html) != Login ==> r.1.pageType == Some(Classify(current.value.html))
    ensures r.1.success ==>
              && r.0 == s.(authInProgress := !LoggedIn(submission.page.html))
              && r.1.loggedIn == Some(LoggedIn(submission.page.html))
    ensures current.None? ==> r.1 == AuthReply(false, Some(NoActivePage), None, None)
    ensures current.Some? && !NeedsLogin(Classify(current.value.html)) ==>
              r.1.error == Some("Not on login page (detected: " + Name(Classify(current.value.html)) + "). Current URL: " + current.value.url)
    ensures current.Some? && Classify(current.value.html) == Login && submission.Raised? ==>
              r.1 == AuthReply(false, Some(submission.message), None, None)
  {
    match current
    case None => (s, AuthReply(false, Some(NoActivePage), None, None))
    case Some(page) =>
      var pageType := Classify(page.html);
      if pageType == Captcha then
        (s, AuthReply(false, Some(CaptchaDetected), Some(Captcha), None))
      else if pageType != Login then
        var message := "Not on login page (detected: " + Name(pageType) + "). Current URL: " + page.url;
        (s, AuthReply(false, Some(message), Some(pageType), None))
      else
        match submission
        case Raised(message) => (s, AuthReply(false, Some(message), None, None))
        case Settled(next) =>
          var loggedIn := LoggedIn(next.html);
          (s.(authInProgress := !loggedIn), AuthReply(true, None, Some(Classify(next.html)), Some(loggedIn)))
  }

  /** `finish_auth`: lower the flag; nothing else changes. */
  function FinishAuth(s: State): (r: State)
    ensures !r.authInProgress
    ensures r.(authInProgress := s.authInProgress) == s
  {
    s.(authInProgress := false)
  }

  /** A login attempt that lands on a captcha page leaves the flow in progress,
      and finishing afterwards always ends it. */
  lemma FillThenFinish(s: State, current: Page, next: Page)
    requires Classify(current.html) == Login && Classify(next.html) == Captcha
    ensures AuthFillLogin(s, Some(current), Settled(next)).0.authInProgress
    ensures !FinishAuth(AuthFillLogin(s, Some(current), Settled(next)).0).authInProgress
  {
  }

  // ── Fetching ───────────────────────────────────────────────

  /** What navigating to one URL produced: the settled page with its body text and
      extraction inputs, or the message of the exception navigation raised. */
  datatype Load = Load(page: Page, bodyText: string, obs: Observation)
  datatype Navigation = Loaded(load: Load) | LoadFailed(message: string)

  datatype FetchReply =
    | Fetched(data: Dict)
    | NeedsAuth(error: string)
    | NoData(error: string, preview: string, url: string)
    | FetchFailed(error: string)

  /** The new state, the reply, and the URLs navigated to, in order. */
  datatype FetchResult = FetchResult(state: State, reply: FetchReply, visited: seq<string>)

  const CaptchaRequired: string := "CAPTCHA required. Please re-authenticate via the web UI."
  const SessionExpired: string := "Session expired. Please re-authenticate via the web UI."
  const NoTankData: string := "Could not extract tank data from page."

  lemma MessagesDistinct()
    ensures CaptchaRequired != SessionExpired
  {
  }

  function TankUrl(tankId: string): string {
    TankUrlPrefix + tankId + "/edit"
  }

  function AlternateUrls(tankId: string): seq<string> {
    [TankUrlPrefix + tankId, DashboardUrl, MyAccountUrl]
  }

  /** Every URL a fetch may visit, in the order it visits them. */
  function Route(tankId: string): seq<string> {
    [TankUrl(tankId)] + AlternateUrls(tankId)
  }

  /** Caching a reading and appending it to the history. */
  function Store(s: State, t: TankData): (r: State)
    ensures r.lastTankData == Some(t) && r.history == History.Append(s.history, t)
    ensures r.authInProgress == s.authInProgress && r.lastError == s.lastError
  {
    s.(lastTankData := Some(t), history := History.Append(s.history, t))
  }

  /** The extraction applied to every page a fetch reads, stamped with the fetch's instant. */
  function Reader(now: string): Observation -> Option<TankData> {
    obs => Extract(obs, now)
  }

  /** The page at `url` loads and yields the reading `t`. */
  ghost predicate Yields(browse: string -> Navigation, url: string, read: Observation -> Option<TankData>, t: TankData) {
    browse(url).Loaded? && read(browse(url).load.obs) == Some(t)
  }

  /** The page at `url` loads but yields no reading. */
  ghost predicate Barren(browse: string -> Navigation, url: string, read: Observation -> Option<TankData>) {
    browse(url).Loaded? && read(browse(url).load.obs).None?
  }

  predicate IsPrefix<T(==)>(s: seq<T>, t: seq<T>) {
    |s| <= |t| && s == t[..|s|]
  }

  /** Where a walk along the URLs stops: at the page with index `index` yielding a reading,
      at the navigation with index `index` raising, or past the last page, whose load is kept. */
  datatype Walk = Found(index: nat, t: TankData) | Broken(index: nat, message: string) | Exhausted(last: Load)

  /** Reading the loaded page `urls[0]`, then the remaining URLs in order, until a page
      yields a reading, a navigation raises, or the URLs run out. */
  function WalkPages(urls: seq<string>, browse: string -> Navigation, read: Observation -> Option<TankData>, load: Load): (w: Walk)
    requires urls != [] && browse(urls[0]) == Loaded(load)
    ensures w.Found? ==> w.index < |urls| && Yields(browse, urls[w.index], read, w.t)
    ensures w.Found? ==> forall k | 0 <= k < w.index :: Barren(browse, urls[k], read)
    ensures w.Broken? ==> 0 < w.index < |urls| && browse(urls[w.index]) == LoadFailed(w.message)
    ensures w.Broken? ==> forall k | 0 <= k < w.index :: Barren(browse, urls[k], read)
    ensures w.Exhausted? ==> browse(urls[|urls| - 1]) == Loaded(w.last)
    ensures w.Exhausted? ==> forall k | 0 <= k < |urls| :: Barren(browse, urls[k], read)
    decreases |urls|
  {
    match read(load.obs)
    case Some(t) => Found(0, t)
    case None =>
      if |urls| == 1 then Exhausted(load)
      else
        match browse(urls[1])
        case LoadFailed(message) => Broken(1, message)
        case Loaded(next) =>
          var tail := urls[1..];
          assert forall k | 0 <= k < |tail| :: tail[k] == urls[k + 1];
          match WalkPages(tail, browse, read, next)
          case Found(i, t) => Found(i + 1, t)
          case Broken(i, message) => Broken(i + 1, message)
          case Exhausted(last) => Exhausted(last)
  }

  /** A reply without data for the page `navigation` left open: the fixed error, the first
      500 characters of the page's text, and the URL the page settled on. */
  predicate Reports(navigation: Navigation, reply: FetchReply) {
    && navigation.Loaded?
    && reply == NoData(NoTankData, Take(navigation.load.bodyText, PreviewLength), navigation.load.page.url)
  }

  /** The fetch result of a walk: the reading found is cached and stored, a raising
      navigation is reported, and running out of pages reports the last page's text. */
  function ReadPages(s: State, urls: seq<string>, browse: string -> Navigation, read: Observation -> Option<TankData>, load: Load): (r: FetchResult)
    requires urls != [] && browse(urls[0]) == Loaded(load)
    ensures IsPrefix(r.visited, urls) && r.visited != []
    ensures !r.reply.NeedsAuth?
    ensures !r.reply.Fetched? ==> r.state == s
    ensures forall k | 0 <= k < |r.visited| - 1 :: Barren(browse, r.visited[k], read)
    ensures r.reply.FetchFailed? <==> browse(r.visited[|r.visited| - 1]).LoadFailed?
    ensures r.reply.FetchFailed? ==> r.reply.error == browse(r.visited[|r.visited| - 1]).message
    ensures r.reply.Fetched? ==>
              exists t :: Yields(browse, r.visited[|r.visited| - 1], read, t) && r.state == Store(s, t) && r.reply.data == ToDict(t)
    ensures r.reply.NoData? ==>
              && r.visited == urls
              && (forall k | 0 <= k < |urls| :: Barren(browse, urls[k], read))
              && |r.reply.preview| <= PreviewLength
    ensures r.reply.NoData? ==> Reports(browse(urls[|urls| - 1]), r.reply)
  {
    match WalkPages(urls, browse, read, load)
    case Found(i, t) =>
      var visited := urls[..i + 1];
      assert visited[i] == urls[i];
      FetchResult(Store(s, t), Fetched(ToDict(t)), visited)
    case Broken(i, message) =>
      var visited := urls[..i + 1];
      assert visited[i] == urls[i];
      FetchResult(s, FetchFailed(message), visited)
    case Exhausted(last) =>
      FetchResult(s, NoData(NoTankData, Take(last.bodyText, PreviewLength), last.page.url), urls)
  }

  /** Whether a page type means the session must be re-established by hand. */
  predicate NeedsLogin(t: PageType) {
    t == Captcha || t == Login
  }

  /** The re-authentication message a page type calls for, if any. */
  function AuthGate(t: PageType): (r: Option<string>)
    ensures r.Some? <==> NeedsLogin(t)
    ensures r.Some? ==> r.value in {CaptchaRequired, SessionExpired} && (r.value == CaptchaRequired <==> t == Captcha)
  {
    MessagesDistinct();
    if t == Captcha then Some(CaptchaRequired)
    else if t == Login then Some(SessionExpired)
    else None
  }

  /** `fetch_tank_data`: a captcha or login page asks for re-authentication; otherwise the tank
      page is read, then each alternate URL in turn, and the first reading found is cached
      and appended to the history. */
  function Fetch(s: State, tankId: string, browse: string -> Navigation, now: string): (r: FetchResult)
    ensures IsPrefix(r.visited, Route(tankId)) && r.visited != []
    ensures r.state.authInProgress == s.authInProgress && r.state.lastError == s.lastError
    ensures !r.reply.Fetched? ==> r.state == s
    ensures r.reply.NeedsAuth? <==>
              browse(TankUrl(tankId)).Loaded? && NeedsLogin(Classify(browse(TankUrl(tankId)).load.page.html))
    ensures r.reply.NeedsAuth? ==> r.visited == [TankUrl(tankId)]
    ensures r.reply.NeedsAuth? ==>
              && r.reply.error in {CaptchaRequired, SessionExpired}
              && (r.reply.error == CaptchaRequired <==> Classify(browse(TankUrl(tankId)).load.page.html) == Captcha)
    ensures forall k | 0 <= k < |r.visited| - 1 :: Barren(browse, r.visited[k], Reader(now))
    ensures r.reply.FetchFailed? <==> browse(r.visited[|r.visited| - 1]).LoadFailed?
    ensures r.reply.FetchFailed? ==> r.reply.error == browse(r.visited[|r.visited| - 1]).message
    ensures r.reply.Fetched? ==>
              exists t :: Yields(browse, r.visited[|r.visited| - 1], Reader(now), t) && r.state == Store(s, t) && r.reply.data == ToDict(t)
    ensures r.reply.Fetched? ==>
              && r.state.lastTankData.Some?
              && r.state.history != []
              && r.state.history[|r.state.history| - 1] == r.reply.data == ToDict(r.state.lastTankData.value)
    ensures r.reply.NoData? ==>
              && r.visited == Route(tankId)
              && (forall k | 0 <= k < |r.visited| :: Barren(browse, r.visited[k], Reader(now)))
              && |r.reply.preview| <= PreviewLength
    ensures r.reply.NoData? ==> Reports(browse(MyAccountUrl), r.reply)
  {
    var url := TankUrl(tankId);
    match browse(url)
    case LoadFailed(message) => FetchResult(s, FetchFailed(message), [url])
    case Loaded(load) =>
      match AuthGate(Classify(load.page.html))
      case Some(message) => FetchResult(s, NeedsAuth(message), [url])
      case None => ReadRoute(s, tankId, browse, now, load)
  }

  /** Reading the tank page that loaded as `load`, then the alternate URLs. */
  function ReadRoute(s: State, tankId: string, browse: string -> Navigation, now: string, load: Load): (r: FetchResult)
    requires browse(TankUrl(tankId)) == Loaded(load)
    ensures IsPrefix(r.visited, Route(tankId)) && r.visited != [] && r.visited[0] == TankUrl(tankId)
    ensures !r.reply.NeedsAuth?
    ensures !r.reply.Fetched? ==> r.state == s
    ensures forall k | 0 <= k < |r.visited| - 1 :: Barren(browse, r.visited[k], Reader(now))
    ensures r.reply.FetchFailed? <==> browse(r.visited[|r.visited| - 1]).LoadFailed?
    ensures r.reply.FetchFailed? ==> r.reply.error == browse(r.visited[|r.visited| - 1]).message
    ensures r.reply.Fetched? ==>
              exists t :: Yields(browse, r.visited[|r.visited| - 1], Reader(now), t) && r.state == Store(s, t) && r.reply.data == ToDict(t)
    ensures r.reply.Fetched? ==>
              && r.state.lastTankData.Some?
              && r.state.history != []
              && r.state.history[|r.state.history| - 1] == r.reply.data == ToDict(r.state.lastTankData.value)
    ensures r.reply.NoData? ==>
              && r.visited == Route(tankId)
              && (forall k | 0 <= k < |r.visited| :: Barren(browse, r.visited[k], Reader(now)))
              && |r.reply.preview| <= PreviewLength
    ensures r.reply.NoData? ==> Reports(browse(MyAccountUrl), r.reply)
  {
    var route := Route(tankId);
    assert route[0] == TankUrl(tankId) && route[|route| - 1] == MyAccountUrl;
    var r := ReadPages(s, route, browse, Reader(now), load);
    assert r.visited[|r.visited| - 1] == route[|r.visited| - 1];
    assert r.reply.NoData? ==> Reports(browse(MyAccountUrl), r.reply);
    r
  }
}

=== FILE: tank_reading.dfy ===
/** One tank reading, its level band and the dictionary form stored in the history file. */
module TankReading {
  import opened Optional

  datatype TankData = TankData(
    litres: real,
    totalLitres: real,
    percent: real,
    totalPercent: real,
    capacity: real,
    levelName: string,
    timestamp: string)

  /** A value of the dictionary form: every field is a number or a string. */
  datatype Value = Num(n: real) | Str(s: string)

  type Dict = map<string, Value>

  const FieldNames: set<string> :=
    {"litres", "total_litres", "percent", "total_percent", "capacity", "level_name", "timestamp"}

  /** The fields that hold numbers; the other two hold text. */
  const NumericFields: set<string> := {"litres", "total_litres", "percent", "total_percent", "capacity"}

  /** Every key names a field, and every value has the type of its field. */
  predicate WellTyped(d: Dict) {
    d.Keys <= FieldNames && forall k | k in d :: (k in NumericFields <==> d[k].Num?)
  }

  /** The band a fill percentage falls in. */
  function LevelName(percent: real): (r: string)
    ensures r == "High" <==> percent >= 60.0
    ensures r == "Medium" <==> 30.0 <= percent < 60.0
    ensures r == "Low" <==> percent < 30.0
  {
    if percent >= 60.0 then "High" else if percent >= 30.0 then "Medium" else "Low"
  }

  function BandRank(name: string): int {
    if name == "High" then 2 else if name == "Medium" then 1 else 0
  }

  /** A fuller tank is never in a lower band. */
  lemma LevelMonotone(p: real, q: real)
    requires p <= q
    ensures BandRank(LevelName(p)) <= BandRank(LevelName(q))
  {
  }

  /** The constructor's `timestamp or now`: an absent or empty timestamp becomes the current instant. */
  function Stamp(timestamp: Option<string>, now: string): (r: string)
    ensures timestamp.Some? && timestamp.value != "" ==> r == timestamp.value
    ensures !(timestamp.Some? && timestamp.value != "") ==> r == now
    ensures now != "" ==> r != ""
  {
    if timestamp.Some? && timestamp.value != "" then timestamp.value else now
  }

  function ToDict(t: TankData): (d: Dict)
    ensures d.Keys == FieldNames
    ensures d["litres"] == Num(t.litres) && d["total_litres"] == Num(t.totalLitres)
    ensures d["percent"] == Num(t.percent) && d["total_percent"] == Num(t.totalPercent)
    ensures d["capacity"] == Num(t.capacity)
    ensures d["level_name"] == Str(t.levelName) && d["timestamp"] == Str(t.timestamp)
    ensures WellTyped(d)
  {
    map["litres" := Num(t.litres),
        "total_litres" := Num(t.totalLitres),
        "percent" := Num(t.percent),
        "total_percent" := Num(t.totalPercent),
        "capacity" := Num(t.capacity),
        "level_name" := Str(t.levelName),
        "timestamp" := Str(t.timestamp)]
  }

  /** A numeric keyword argument: its default when absent, nothing when it is not a number. */
  function NumArg(d: Dict, key: string, default: real): Option<real> {
    if key !in d then Some(default)
    else if d[key].Num? then Some(d[key].n)
    else None
  }

  function StrArg(d: Dict, key: string): Option<Option<string>> {
    if key !in d then Some(None)
    else if d[key].Str? then Some(Some(d[key].s))
    else None
  }

  /** `TankData(**d)`: every key must name a constructor parameter, absent fields take
      the constructor's defaults and the timestamp falls back to `now`. */
  function FromDict(d: Dict, now: string): (r: Option<TankData>)
    ensures r.Some? <==> WellTyped(d)
    ensures r.Some? && now != "" ==> r.value.timestamp != ""
    ensures r.Some? ==> forall k | k in d && k != "timestamp" :: ToDict(r.value)[k] == d[k]
    ensures r.Some? ==> forall k | k in NumericFields && k !in d :: ToDict(r.value)[k] == Num(0.0)
    ensures r.Some? && "level_name" !in d ==> r.value.levelName == "Unknown"
    ensures r.Some? && "timestamp" in d && d["timestamp"] != Str("") ==> r.value.timestamp == d["timestamp"].s
    ensures r.Some? && ("timestamp" !in d || d["timestamp"] == Str("")) ==> r.value.timestamp == now
  {
    if !(d.Keys <= FieldNames) then None
    else
      var litres :- NumArg(d, "litres", 0.0);
      var totalLitres :- NumArg(d, "total_litres", 0.0);
      var percent :- NumArg(d, "percent", 0.0);
      var totalPercent :- NumArg(d, "total_percent", 0.0);
      var capacity :- NumArg(d, "capacity", 0.0);
      var levelName :- StrArg(d, "level_name");
      var timestamp :- StrArg(d, "timestamp");
      Some(TankData(litres, totalLitres, percent, totalPercent, capacity,
                    levelName.GetOr("Unknown"), Stamp(timestamp, now)))
  }

  /** Reading a stored reading back gives the same reading. */
  lemma RoundTrip(t: TankData, now: string)
    requires t.timestamp != ""
    ensures FromDict(ToDict(t), now) == Some(t)
  {
  }
}

=== FILE: text.dfy ===
/** Character-level helpers shared by the page classifier and the static file server. */
module Text {

  /** Lower-cases one ASCII letter and leaves every other character alone. */
  function LowerChar(c: char): char {
    if 'A' <= c <= 'Z' then (c as int + 32) as char else c
  }

  /** `str.lower()` restricted to ASCII letters. */
  function Lower(s: string): (r: string)
    ensures |r| == |s|
    ensures forall i | 0 <= i < |s| :: r[i] == LowerChar(s[i])
  {
    seq(|s|, i requires 0 <= i < |s| => LowerChar(s[i]))
  }

  lemma LowerIdempotent(s: string)
    ensures Lower(Lower(s)) == Lower(s)
  {
    assert forall i | 0 <= i < |s| :: Lower(Lower(s))[i] == Lower(s)[i];
  }

  /** Text without upper-case ASCII letters is its own lower-case form. */
  lemma LowerUnchanged(s: string)
    requires forall i | 0 <= i < |s| :: !('A' <= s[i] <= 'Z')
    ensures Lower(s) == s
  {
  }

  lemma LowerSlice(s: string, i: nat, j: nat)
    requires i <= j <= |s|
    ensures Lower(s)[i..j] == Lower(s[i..j])
  {
  }

  lemma LowerConcat(a: string, b: string)
    ensures Lower(a + b) == Lower(a) + Lower(b)
  {
    assert forall i | 0 <= i < |a + b| :: Lower(a + b)[i] == (Lower(a) + Lower(b))[i];
  }

  predicate StartsWith(s: string, prefix: string) {
    |prefix| <= |s| && s[..|prefix|] == prefix
  }

  /** Python's `needle in hay`, computed by trying every start position from the left. */
  predicate Contains(hay: string, needle: string)
    decreases |hay|
  {
    StartsWith(hay, needle) || (hay != [] && Contains(hay[1..], needle))
  }

  /** The reference notion of a substring: `needle` sits at position `i` of `hay`. */
  ghost predicate OccursAt(hay: string, needle: string, i: int) {
    0 <= i && i + |needle| <= |hay| && hay[i..i + |needle|] == needle
  }

  /** The left-to-right search finds `needle` exactly when it occurs somewhere. */
  lemma {:induction false} ContainsIff(hay: string, needle: string)
    ensures Contains(hay, needle) <==> exists i :: OccursAt(hay, needle, i)
    decreases |hay|
  {
    if StartsWith(hay, needle) {
      assert OccursAt(hay, needle, 0);
    } else if hay == [] {
      assert !exists i :: OccursAt(hay, needle, i);
    } else {
      var tail := hay[1..];
      ContainsIff(tail, needle);
      forall j | OccursAt(tail, needle, j)
        ensures OccursAt(hay, needle, j + 1)
      {
        assert hay[j + 1..j + 1 + |needle|] == tail[j..j + |needle|];
      }
      forall i | OccursAt(hay, needle, i)
        ensures OccursAt(tail, needle, i - 1)
      {
        assert i != 0;
        assert tail[i - 1..i - 1 + |needle|] == hay[i..i + |needle|];
      }
    }
  }

  /** Surrounding text never hides an occurrence. */
  lemma ContainsWithin(before: string, middle: string, after: string, needle: string)
    requires Contains(middle, needle)
    ensures Contains(before + middle + after, needle)
  {
    ContainsIff(middle, needle);
    var i :| OccursAt(middle, needle, i);
    var whole := before + middle + after;
    assert whole[|before| + i..|before| + i + |needle|] == middle[i..i + |needle|];
    assert OccursAt(whole, needle, |before| + i);
    ContainsIff(whole, needle);
  }

  /** Python's `s[:n]` for a non-negative `n`. */
  function Take(s: string, n: nat): (r: string)
    ensures |r| <= n && |r| <= |s|
    ensures r == s[..|r|]
    ensures |s| <= n ==> r == s
    ensures |s| > n ==> |r| == n
  {
    if |s| <= n then s else s[..n]
  }
}
